=== FILE: README.md ===
# Keystone telemetry, modelled in Dafny

This project models Keystone's anonymous usage telemetry in three parts:

- `packages/core/src/lib/telemetry.ts`:
  - the gate that decides whether telemetry may run (CI, production, opted out, first run);
  - first-run consent (`ensureTelemetry`);
  - the per-directory consent lookup, with its copy of the default project consent;
  - the project and device events, each sent at most once per calendar day.
  - The field-type, package-version and list counts reported in the project event.
- `packages/core/src/scripts/telemetry.ts`: the `keystone telemetry` command (`status`, `clear`, `disable`, `init`) and the two consent prompts.
- `packages/core/src/lib/telemetry/index.ts`: the earlier single-event revision. It turns the stored setting into environment switches at load. Each event merges device and project information, with namespace-filtered dependencies.

Everything is a pure function over immutable values:

- The configuration file is a JSON object tree (`Json.Obj`). Dotted keys are written as Conf does it: the key is split at every `.`, and intermediate steps that are not objects are replaced by `{}`.
- The module-level `telemetry` variable is kept separately as a typed `Consent.Config`. It is related to the file through `ReadTelemetry`/`WriteTelemetry`.
- One process is a `Telemetry.Run`: its environment, the in-memory setting, the file, the events handed to the network or the console, and whether the consent notice has been printed.
- The clock, CI detection, the operating system, the Node.js version and the installed packages are inputs (`Platform.Host`). All `new Date()` readings of one operation share one timestamp, `now`.

Modules:

- `Wrappers`, `Strings`, `Json`, `Environment`, `Records` and `Tally` hold the JavaScript and Conf semantics the code relies on:
  - truthiness;
  - `||` on strings;
  - lexicographic `<`/`>=`;
  - `split('.')`;
  - dot-path get/set;
  - `process.env`;
  - `Object.entries`;
  - counting into buckets.
- `Consent` holds the stored shapes and their JSON encoding.
- `Telemetry` holds the current revision, and `Lifecycle` relates several of its calls and several processes.
- `TelemetryScript` holds the command, and `LegacyTelemetry` the earlier revision.

## Source behaviour the model keeps

- Line 92 of `lib/telemetry.ts` stores the copied default consent under `telemetry.projects<cwd>`, with no `.` after `projects`. In memory the copy goes to `projects[cwd]`. The model writes the key as the code does:
  - `Lifecycle.PersistedCopyMisplaced` shows that the file read back is unchanged;
  - `Lifecycle.NewDirectoryPersisted` shows that the directory's entry reaches the file only through the date write of line 232, holding a date and no `informedAt`.
- The label `case 'disable' || 'disabled':` evaluates to `'disable'`. `disabled` therefore falls to the usage text (`TelemetryScript.DisabledIsInvalid`).
- The earlier revision sends its event without looking at any consent (`LegacyTelemetry.ConsentNotConsulted`).
- `fieldCount` skips untagged paths ending in lower-case `id`. `authorId` ends in `Id`, so an untagged `authorId` relation is counted as `@keystone-6/relationship` (`Telemetry.FieldCountExample`). In the earlier revision every untagged field counts as `unknown` (`LegacyTelemetry.FieldCountExample`).

## Model

| member | source | states |
|---|---|---|
| Strings.LessIrreflexive | packages/core/src/lib/telemetry.ts:217 | no date string is before itself, so `d >= d` |
| Strings.LessTransitive | packages/core/src/lib/telemetry.ts:217 | the string order used to compare dates is transitive |
| Strings.LessTotal | packages/core/src/lib/telemetry.ts:244 | of two different strings one is before the other |
| Strings.LessAsymmetric | packages/core/src/lib/telemetry.ts:244 | two strings are never each before the other |
| Strings.Split | packages/core/src/lib/telemetry.ts:254 | `split('.')` yields at least one piece, no piece holds the separator, and joining the pieces gives the text back |
| Strings.SplitPlain | packages/core/src/lib/telemetry.ts:257 | a text without the separator splits into itself |
| Strings.SplitAtSeparator | packages/core/src/lib/telemetry.ts:232 | splitting stops at the first separator and goes on with the rest |
| Strings.SplitJoin | packages/core/src/lib/telemetry.ts:232 | splitting undoes joining when no piece holds the separator |
| Strings.Head | packages/core/src/lib/telemetry.ts:254 | `split('.')[0]` is the separator-free prefix that is all of the text or is followed by the separator |
| Json.Path | packages/core/src/lib/telemetry.ts:232 | a dotted key addresses the pieces between its dots, which join back to the key |
| Json.Set | packages/core/src/lib/telemetry.ts:232 | a dot-path write adds only its first key at the top and keeps every other top-level member |
| Json.GetSet | packages/core/src/lib/telemetry.ts:257 | the value written at a path is read back there |
| Json.GetSetOther | packages/core/src/lib/telemetry.ts:92 | a write leaves every path that branches off before its end as it was |
| Json.Spread | packages/core/src/lib/telemetry/index.ts:49-54 | object spread holds the members of both objects, the right one's value winning for a shared key |
| Json.SpreadOne | packages/core/src/lib/telemetry/index.ts:52-53 | spreading a one-member object over another writes that member |
| Environment.SwitchOffValues | packages/core/src/lib/telemetry.ts:10-16 | a debug-style switch is off exactly when unset, empty, `'0'` or `'false'` |
| Records.KeysCard | packages/core/src/lib/telemetry.ts:163-168 | a record has as many distinct keys as entries |
| Records.KeyCount | packages/core/src/lib/telemetry.ts:163-168 | `listCount` is 0 without lists and the number of list keys otherwise |
| Tally.Tally | packages/core/src/lib/telemetry.ts:130-160 | after counting, a key is present exactly when it was before or some item went to it, and holds its old count plus that number of items |
| Tally.SumRemove | packages/core/src/lib/telemetry.ts:130-160 | the total of the counts does not depend on the order keys are taken out |
| Tally.SumBump | packages/core/src/lib/telemetry.ts:153-156 | one counted item raises the total by one; a skipped item leaves it |
| Tally.TallySum | packages/core/src/lib/telemetry.ts:130-160 | counting raises the total by exactly the number of items not skipped |
| Tally.CountedAll | packages/core/src/lib/telemetry/index.ts:118-131 | when no item is skipped, every item is counted |
| Consent.EncodeConsent | packages/core/src/lib/telemetry.ts:57-63 | a stored consent decodes back to itself |
| Consent.EncodeSettings | packages/core/src/lib/telemetry.ts:57-64 | stored settings decode back to themselves |
| Consent.WriteTelemetry | packages/core/src/lib/telemetry.ts:64 | `set('telemetry', c)` or `delete('telemetry')` reads back as `c` and leaves every other key of the file alone |
| Consent.LastWriteWins | packages/core/src/scripts/telemetry.ts:66-69 | after two writes of the setting the file is as if only the second had been made, so a `delete` followed by a `set` replaces the whole old object |
| Consent.Stamped | packages/core/src/lib/telemetry.ts:232 | setting `lastSentDate` keeps a given consent's informed date exactly, present or absent; a missing or declined consent becomes one holding only the date |
| Consent.ReplaceDevice | packages/core/src/lib/telemetry.ts:257 | replacing the stored device consent changes only the device consent read back |
| Consent.ReplaceProject | packages/core/src/lib/telemetry.ts:232 | replacing or adding one stored project consent changes only that directory's consent read back |
| Platform.TodaysDate | packages/core/src/lib/telemetry.ts:39 | today's date is the first ten characters of the ISO timestamp |
| Platform.MajorVersion | packages/core/src/lib/telemetry.ts:254 | the Node.js major version is the text before the first `.` of the version |
| Telemetry.IsDebugging | packages/core/src/lib/telemetry.ts:10-16 | debugging is on exactly when the variable is set to something other than `''`, `'0'` and `'false'` |
| Telemetry.TelemetryDisabled | packages/core/src/lib/telemetry.ts:41-48 | the gate is closed under CI, in production, when opted out, or on the first run |
| Telemetry.TelemetryDisabledStored | packages/core/src/lib/telemetry.ts:41-48 | the typed opted-out test agrees with `telemetry === false` on the value the file holds |
| Telemetry.Bucket | packages/core/src/lib/telemetry.ts:137-151 | a tagged field goes to its tag; a field is skipped exactly when it is untagged and its path ends in `id` or starts with `from`; an untagged field that is not skipped goes to the relationship bucket exactly when it is a relation, and to `unknown` otherwise; no field goes to an empty bucket |
| Telemetry.FieldCount | packages/core/src/lib/telemetry.ts:130-160 | `unknown` is always a key, every other key is some field's bucket, and each count is the number of fields in that bucket |
| Telemetry.FieldCountSum | packages/core/src/lib/telemetry.ts:130-160 | the counts add up to the number of fields not skipped as ids or reverse relations |
| Telemetry.ExampleBuckets | packages/core/src/lib/telemetry.ts:138-156 | an untagged `id` is skipped, a tag is its own bucket, and an untagged `authorId` relation goes to the relationship bucket |
| Telemetry.ExampleCounts | packages/core/src/lib/telemetry.ts:136-158 | the example fields put one item each in `text` and the relationship bucket |
| Telemetry.FieldCountExample | packages/core/src/lib/telemetry.ts:130-160 | the example list counts `{unknown: 0, text: 1, relationship: 1}` |
| Telemetry.CollectVersions | packages/core/src/lib/telemetry.ts:112-119 | exactly the installed names among those asked for are reported, each with its installed version |
| Telemetry.KeystonePackages | packages/core/src/lib/telemetry.ts:109-128 | only the six fixed package names are reported, when installed, with their installed versions |
| Telemetry.EventUrl | packages/core/src/lib/telemetry.ts:172-173 | the event URL is the endpoint followed by `/v1/event/<type>` |
| Telemetry.SendEvent | packages/core/src/lib/telemetry.ts:170-205 | the payload goes to the console exactly when `KEYSTONE_TELEMETRY_DISPLAY` is `'1'`, and is posted otherwise; the URL is the endpoint (the variable when set and non-empty, else the default) followed by `/v1/event/<type>` |
| Telemetry.AlreadySent | packages/core/src/lib/telemetry.ts:217 | no date or an empty date never blocks; a date equal to today blocks; a date before today does not block |
| Telemetry.Due | packages/core/src/lib/telemetry.ts:214-223 | a declined consent is never due; when debugging every given consent is due; a given consent stamped today is due only when debugging; one never sent is due |
| Telemetry.DeviceDatePathOfKey | packages/core/src/lib/telemetry.ts:257 | the device date key addresses `telemetry`, `device`, `lastSentDate` |
| Telemetry.SendProjectTelemetryEvent | packages/core/src/lib/telemetry.ts:207-239 | a due project consent yields one project event carrying the previous last-sent date (or `''`), after which the file holds today's date for the directory; otherwise nothing is sent or written |
| Telemetry.SendDeviceTelemetryEvent | packages/core/src/lib/telemetry.ts:241-264 | a due device consent yields one device event carrying the previous last-sent date (or `''`), after which the file holds today's date for the device; otherwise nothing is sent or written |
| Telemetry.CopyDefault | packages/core/src/lib/telemetry.ts:91-94 | a directory without an entry gets the default entry in memory, and the file gets it under the misplaced key `telemetry.projects<cwd>`; a directory with an entry changes nothing; the device, the other projects, `prisma` and `nextjs` stay as they were and nothing is sent |
| Telemetry.SendBoth | packages/core/src/lib/telemetry.ts:95-100 | the project event (when due) goes out before the device event (when due), and nothing else |
| Telemetry.SendTelemetryEvent | packages/core/src/lib/telemetry.ts:79-107 | with the gate closed, nothing stored, or no consent to copy, nothing happens; otherwise the sent events are the directory's due project event followed by the due device event |
| Telemetry.EnsureTelemetry | packages/core/src/lib/telemetry.ts:52-77 | only with the gate open and nothing stored: stores informed consent for the device, the default and the directory through `set('telemetry', …)` alone, so every other key of the shared file is kept; reads it back, prints the consent notice exactly when it stores consent, and closes the gate for the rest of the run |
| Lifecycle.ProjectDatePathOfKey | packages/core/src/lib/telemetry.ts:232 | for a directory without `.`, the project date key addresses that directory's entry |
| Lifecycle.CopyPathOfKey | packages/core/src/lib/telemetry.ts:92 | the copy key addresses the member `projects<cwd>` beside `projects`, not the directory's entry |
| Lifecycle.PersistedCopyMisplaced | packages/core/src/lib/telemetry.ts:91-94 | after the copy the file still reads back as the same settings: the directory gets no entry there |
| Lifecycle.StampDecodes | packages/core/src/lib/telemetry.ts:232 | setting `lastSentDate` inside a stored consent decodes to the stamped consent |
| Lifecycle.SetTwo | packages/core/src/lib/telemetry.ts:92 | a two-key write replaces one member of an object member |
| Lifecycle.SetThree | packages/core/src/lib/telemetry.ts:257 | a three-key write creates the middle object when it is missing or not an object |
| Lifecycle.SetFour | packages/core/src/lib/telemetry.ts:232 | a four-key write below two objects touches only the addressed entry |
| Lifecycle.ProjectStampPersisted | packages/core/src/lib/telemetry.ts:232 | after the project date write, only the directory's consent changes in the file, and it changes to the stamped consent |
| Lifecycle.DeviceStampPersisted | packages/core/src/lib/telemetry.ts:257 | after the device date write, only the device consent changes in the file, and it changes to the stamped consent |
| Lifecycle.StampedNotDue | packages/core/src/lib/telemetry.ts:217-223 | a consent last sent today is not due again today unless debugging |
| Lifecycle.EarlierDateDue | packages/core/src/lib/telemetry.ts:217 | a consent last sent on an earlier date is due |
| Lifecycle.LaterDateNotDue | packages/core/src/lib/telemetry.ts:244-250 | a consent last sent on a later date (the clock went back) is not due unless debugging |
| Lifecycle.SendBothPersisted | packages/core/src/lib/telemetry.ts:95-100 | after both sends, the file holds each consent stamped when it was due and unchanged otherwise |
| Lifecycle.NothingDue | packages/core/src/lib/telemetry.ts:79-107 | when neither the consent a directory gets (its own or the default) nor the device consent is due, nothing is sent |
| Lifecycle.BothDue | packages/core/src/lib/telemetry.ts:79-107 | when both the consent a directory gets (its own or the default) and the device consent are due, the project event and then the device event are sent |
| Lifecycle.OncePerDay | packages/core/src/lib/telemetry.ts:207-264 | a later process on the same calendar day, at any time of it, that reads the file back sends nothing more, unless debugging, for a directory with its own entry and for one seen for the first time |
| Lifecycle.OncePerDayOwnEntry | packages/core/src/lib/telemetry.ts:207-264 | for a directory with its own entry, the file read back after one call makes any later call of the same day send nothing |
| Lifecycle.OncePerDayNewDirectory | packages/core/src/lib/telemetry.ts:91-100 | for a directory seen for the first time, the file read back after one call makes any later call of the same day send nothing |
| Lifecycle.NewDirectoryPersisted | packages/core/src/lib/telemetry.ts:91-100 | for a new directory the file gains the directory's entry, with a date and no informed date, only when the default consent was due |
| Lifecycle.FirstRunSendsNothing | packages/core/src/lib/telemetry.ts:41-48 | the run that asks for consent sends nothing, and has printed the consent notice |
| Lifecycle.NotifiedOnce | packages/core/src/lib/telemetry.ts:52-67 | the consent notice is printed at most once per process: a further `ensureTelemetry` in the run that stored consent changes nothing |
| Lifecycle.SecondRunSendsBoth | packages/core/src/lib/telemetry.ts:52-77 | the next process reads the consent back and sends both events, each with an empty last-sent date |
| TelemetryScript.Status | packages/core/src/scripts/telemetry.ts:48-57 | `status` shows a truthy stored value, the disabled text for `false`, and the not-initialised text otherwise |
| TelemetryScript.InitGlobalTelemetry | packages/core/src/scripts/telemetry.ts:102-124 | the device consent follows the first answer; the projects are a declined default, or after a yes an informed default and directory |
| TelemetryScript.Telemetry | packages/core/src/scripts/telemetry.ts:47-74 | `clear` unsets and prints the not-initialised text, `disable` opts out and prints the disabled text, `init` prints the two consent texts and leaves the file exactly as one `set('telemetry', …)` of the answers would, with no member of the old object left, `status` and every other option leave the file alone; only the `telemetry` key changes |
| TelemetryScript.StatusShowsConfig | packages/core/src/scripts/telemetry.ts:48-57 | `status` shows not-initialised, disabled or enabled exactly when the setting is unset, opted out or stored |
| TelemetryScript.StatusOfOtherValues | packages/core/src/scripts/telemetry.ts:48-57 | a stored value of a shape the code never writes is never shown as disabled, and is shown exactly when truthy |
| TelemetryScript.StatusAfterClear | packages/core/src/scripts/telemetry.ts:58-61 | `clear` followed by `status` shows the not-initialised text |
| TelemetryScript.StatusAfterDisable | packages/core/src/scripts/telemetry.ts:62-65 | `disable` followed by `status` shows the disabled text |
| TelemetryScript.DisabledIsInvalid | packages/core/src/scripts/telemetry.ts:62-72 | the option `disabled` prints the usage text and leaves the file alone |
| TelemetryScript.DisableStopsTelemetry | packages/core/src/scripts/telemetry.ts:62-65 | after `disable`, a process neither asks for consent nor sends anything |
| TelemetryScript.InitAnswersDecide | packages/core/src/scripts/telemetry.ts:102-124 | after `init`, the project event is sent exactly when the project answer was yes, and the device event exactly when the device answer was |
| LegacyTelemetry.OptsOutOf | packages/core/src/lib/telemetry/index.ts:27-32 | nothing stored and a stored `false` do not switch a tool off; a stored array does; a stored object with a boolean or no member for the tool switches it off unless that member is `true` |
| LegacyTelemetry.Load | packages/core/src/lib/telemetry/index.ts:10-32 | at load an opted-out setting sets the disable switch, and a stored setting without a truthy `prisma`/`nextjs` sets that tool's switch; nothing else changes |
| LegacyTelemetry.LoadTyped | packages/core/src/lib/telemetry/index.ts:14-32 | opting out disables telemetry, nothing stored leaves the environment alone, and stored settings switch the tools off unless they hold `true` |
| LegacyTelemetry.TelemetryDisabled | packages/core/src/lib/telemetry/index.ts:18-24 | telemetry is off exactly when the switch is set to something other than `''`, `'0'` and `'false'` |
| LegacyTelemetry.Bucket | packages/core/src/lib/telemetry/index.ts:122-129 | a field with a non-empty tag goes to its tag, and one without goes to `unknown`; no field is skipped |
| LegacyTelemetry.FieldCount | packages/core/src/lib/telemetry/index.ts:113-133 | `unknown` is always a key, every other key is some field's tag, and each count is the number of fields in that bucket |
| LegacyTelemetry.FieldCountSum | packages/core/src/lib/telemetry/index.ts:113-133 | the counts add up to the number of fields |
| LegacyTelemetry.Namespaced | packages/core/src/lib/telemetry/index.ts:102 | a name is in a reported namespace exactly when it starts with `@keystone-6`, `@opensaas` or `@k6-contrib` |
| LegacyTelemetry.KeystonePackages | packages/core/src/lib/telemetry/index.ts:95-111 | exactly the dependencies in the three namespaces are reported with their ranges; an unreadable `package.json` gives the error entry |
| LegacyTelemetry.DeviceInfoOf | packages/core/src/lib/telemetry/index.ts:85-93 | `last` is the first ten characters of the timestamp, `os` the platform, and `node` the separator-free start of the Node.js version that is all of it or ends at its first `.` |
| LegacyTelemetry.ProjectInfoOf | packages/core/src/lib/telemetry/index.ts:143-150 | project information holds the device part's day, the number of lists, exactly the namespaced dependencies with their ranges (or the error entry), and the per-bucket field counts, which hold `unknown` and add up to the number of fields |
| LegacyTelemetry.Merge | packages/core/src/lib/telemetry/index.ts:49-54 | the event's object is the spread of the device object, the project object, `{dbProvider}` and `{eventType}`, in that order |
| LegacyTelemetry.DeviceUnderProject | packages/core/src/lib/telemetry/index.ts:50-51 | spreading the project object over the device object overrides only `last` |
| LegacyTelemetry.EventMembers | packages/core/src/lib/telemetry/index.ts:49-54 | the event's object is the device's `os` and `node`, the project object, and the two named members |
| LegacyTelemetry.MergeKeepsBothParts | packages/core/src/lib/telemetry/index.ts:49-54 | with both parts holding the same day, the event keeps every member of each part |
| LegacyTelemetry.MergeKeepsDevice | packages/core/src/lib/telemetry/index.ts:50 | with both parts holding the same day, the event keeps every member of the device part |
| LegacyTelemetry.MergeKeepsProject | packages/core/src/lib/telemetry/index.ts:51 | the event keeps every member of the project part |
| LegacyTelemetry.EventKeepsBothParts | packages/core/src/lib/telemetry/index.ts:49-54 | the event one call builds loses no member of its device part or its project part |
| LegacyTelemetry.SendTelemetryEvent | packages/core/src/lib/telemetry/index.ts:34-83 | with the switch on nothing happens; otherwise the command is run when nothing was stored, and then the event is announced and printed (debugging) or posted to `<endpoint>/v1/event`; taking the command to be the one in `scripts/telemetry.ts`, the file does not change |
| LegacyTelemetry.OptedOutSendsNothing | packages/core/src/lib/telemetry/index.ts:14-24 | a process loaded after opting out sends nothing |
| LegacyTelemetry.ConsentNotConsulted | packages/core/src/lib/telemetry/index.ts:40-79 | any other stored value, declined consent included, lets the event out |
| LegacyTelemetry.PackageNamesNamespaced | packages/core/src/lib/telemetry/index.ts:102 | each fixed package name of the later revision lies in one of the namespaces |
| LegacyTelemetry.RevisionsReportPackages | packages/core/src/lib/telemetry/index.ts:95-111 | a hypothetical comparison the code never makes: fed the same map in place of both the `package.json` ranges and the installed versions, the later revision reports a part of what this revision reports |
| LegacyTelemetry.KeystonePackagesExample | packages/core/src/lib/telemetry/index.ts:102-105 | `@keystone-6/core` is reported and `lodash` is not |
| LegacyTelemetry.ExampleCounts | packages/core/src/lib/telemetry/index.ts:122-129 | the example fields put two items in `unknown` and one in `text` |
| LegacyTelemetry.FieldCountExample | packages/core/src/lib/telemetry/index.ts:113-133 | the example list counts `{unknown: 2, text: 1}` |

## Left out

- HTTP: `fetch` and its promise handlers are not modelled. An event handed to `fetch` counts as sent whatever becomes of it, as in the code, where the date is written without waiting for the request.
- Console text: the wording of the status, usage and consent texts and of the debug logging is left out. The model keeps which texts are printed, with one exception: the default branch's two lines (the invalid-option notice and the usage text) are one `UsageText` output. The consent notice of `ensureTelemetry` is the `notified` flag of a run.
- Prompts: the two consent prompts of `initGlobalTelemetry` are the `Answers` parameter.
- Conf: the library's file handling, `clearInvalidConfig`, schema migration and read errors are left out. The catches around `new Conf`/`get` (lines 29-38 and 68-75 of `lib/telemetry.ts`) guard against these errors only.
- Conf and `undefined`: Conf refuses to store `undefined`. When neither the directory nor `default` has an entry, the model abandons `sendTelemetryEvent` at line 92, which is where the surrounding `catch` leaves it.
- Dot paths: Conf's escaping of `\.` in keys and its refusal of certain reserved keys are not modelled. A directory name holding `.` is handled by the functions, but the lemmas about the file (`Lifecycle.*Persisted`, `Lifecycle.OncePerDay`) require a non-empty directory name without `.`.
- Time: every `new Date()` of one operation reads the same `now`. `todaysDate` (line 39) is taken from that `now`, not from the moment the module was loaded.
- String order: JavaScript compares UTF-16 code units. The model compares Dafny characters, which agrees on the ASCII dates the code compares.
- Objects: prototype-inherited keys (`constructor`, `__proto__`) used as field tags or directory names are not modelled. Maps hold own keys only.
- Errors: the outer `catch` in `keystonePackages` of `lib/telemetry.ts` (lines 120-127) is not modelled, because the inner `catch` already handles every failure of `require`.
- Stored shapes: shapes of the setting that the code never writes (for example a consent holding a number) have no typed view. `ReadTelemetry` returns `None` for them. Lemmas that read the file back require a typed view.
- Throttle guard: `sendProjectTelemetryEvent` and `sendDeviceTelemetryEvent` are reached only with a non-`false` consent. `Telemetry.SendBoth` guards the same way.
- Legacy lists: `ListSchemaConfig` is reduced to each field's optional telemetry tag, which is all `fieldCount` reads.
- `KEYSTONE_TELEMETRY_DEBUG` logging of caught errors and the `already sent but debugging` messages are console output only, and are left out.
- LegacyTelemetry.SendTelemetryEvent: the command the earlier revision calls as `telemetryScript('init')` is not part of this model. `scripts/telemetry.ts` is the later revision's command: it writes `projects[cwd]` and never the `prisma`/`nextjs` members that the earlier revision reads. The model runs that command anyway, which binds `'init'` to `cwd` and leaves `option` undefined, so it prints the usage text and stores nothing. Whatever the earlier command stored is left out.
- JSON values: numbers are real numbers, and NaN and the infinities are left out because JSON cannot hold them. Arrays are held but never looked into.
- The in-memory setting: a `Telemetry.Run` holds the typed view of the setting. A stored value with no typed view, such as `[]` or `0.5`, cannot be the setting of a run. With such a value `lib/telemetry.ts` would stop at `telemetry.projects[cwd]` inside its `catch`. `TelemetryScript.StatusOfOtherValues` covers how `status` shows such values, and `LegacyTelemetry.OptsOutOf` covers how the earlier revision treats them at load.

=== FILE: consent.dfy ===
/**
 The stored `telemetry` setting: undefined, `false` (opted out of everything),
 or an object with a device consent and per-project consents. A consent is
 `false` or an object holding when the user was informed and when an event
 was last sent.

 `Config` is the typed view the telemetry code works with; the configuration
 file itself holds JSON, and `ReadTelemetry`/`WriteTelemetry` move between the two.
 */
module Consent {
  import opened Wrappers
  import opened Json

  /** The key under which the configuration file keeps the setting. */
  const TelemetryKey := "telemetry"
  /** The project entry used for directories seen for the first time. */
  const DefaultProject := "default"

  datatype Consent =
    | Declined
    | Granted(informedAt: Option<string>, lastSentDate: Option<string>)

  datatype Settings = Settings(
    device: Consent,
    projects: map<string, Consent>,
    prisma: Option<bool>,
    nextjs: Option<bool>)

  datatype Config =
    | NotSet
    | OptedOut
    | Stored(settings: Settings)

  /** A string member of an object: absent, or present as a string; `None` when present with another type. */
  function StringMember(f: Obj, key: string): Option<Option<string>> {
    if key !in f then Some(None)
    else if f[key].JStr? then Some(Some(f[key].s))
    else None
  }

  /** A boolean member of an object: absent, or present as a boolean; `None` otherwise. */
  function BoolMember(f: Obj, key: string): Option<Option<bool>> {
    if key !in f then Some(None)
    else if f[key].JBool? then Some(Some(f[key].b))
    else None
  }

  function StringEntry(key: string, v: Option<string>): Obj {
    if v.Some? then map[key := JStr(v.value)] else map[]
  }

  function BoolEntry(key: string, v: Option<bool>): Obj {
    if v.Some? then map[key := JBool(v.value)] else map[]
  }

  function DecodeConsent(j: Json): Option<Consent> {
    match j
    case JBool(false) => Some(Declined)
    case JObj(f) =>
      var informed := StringMember(f, "informedAt");
      var last := StringMember(f, "lastSentDate");
      if informed.Some? && last.Some? then Some(Granted(informed.value, last.value)) else None
    case _ => None
  }

  function EncodeConsent(c: Consent): (j: Json)
    ensures DecodeConsent(j) == Some(c)
  {
    match c
    case Declined => JBool(false)
    case Granted(informedAt, lastSentDate) =>
      var f := StringEntry("informedAt", informedAt) + StringEntry("lastSentDate", lastSentDate);
      assert StringMember(f, "informedAt") == Some(informedAt);
      JObj(f)
  }

  function DecodeSettings(j: Json): Option<Settings> {
    match j
    case JObj(f) =>
      if "device" in f && "projects" in f && f["projects"].JObj? then
        var device := DecodeConsent(f["device"]);
        var pf := f["projects"].fields;
        var prisma := BoolMember(f, "prisma");
        var nextjs := BoolMember(f, "nextjs");
        if device.Some? && prisma.Some? && nextjs.Some?
           && forall k :: k in pf ==> DecodeConsent(pf[k]).Some?
        then
          Some(Settings(device.value, map k | k in pf :: DecodeConsent(pf[k]).value, prisma.value, nextjs.value))
        else None
      else None
    case _ => None
  }

  function EncodeSettings(s: Settings): (j: Json)
    ensures DecodeSettings(j) == Some(s)
  {
    var pf := map k | k in s.projects :: EncodeConsent(s.projects[k]);
    var f := map["device" := EncodeConsent(s.device), "projects" := JObj(pf)]
             + BoolEntry("prisma", s.prisma) + BoolEntry("nextjs", s.nextjs);
    assert f["projects"] == JObj(pf);
    assert BoolMember(f, "prisma") == Some(s.prisma);
    assert BoolMember(f, "nextjs") == Some(s.nextjs);
    assert (map k | k in pf :: DecodeConsent(pf[k]).value) == s.projects;
    JObj(f)
  }

  /**
   A consent after its `lastSentDate` member is set to `today`: the informed
   date of a given consent survives; a missing or declined consent becomes an
   object holding only the date.
   */
  function Stamped(c: Option<Consent>, today: string): (r: Consent)
    ensures r.Granted? && r.lastSentDate == Some(today)
    ensures r.informedAt.Some? <==> c.Some? && c.value.Granted? && c.value.informedAt.Some?
    ensures c.Some? && c.value.Granted? ==> r.informedAt == c.value.informedAt
  {
    Granted(if c.Some? && c.value.Granted? then c.value.informedAt else None, Some(today))
  }

  /** The consent a map holds for a key, if any. */
  function Lookup(m: map<string, Consent>, k: string): Option<Consent> {
    if k in m then Some(m[k]) else None
  }

  /** Replacing the stored device consent by another decodes to the settings with that device consent. */
  lemma ReplaceDevice(f: Obj, s: Settings, e: Json, c: Consent)
    requires DecodeSettings(JObj(f)) == Some(s)
    requires DecodeConsent(e) == Some(c)
    ensures DecodeSettings(JObj(f["device" := e])) == Some(s.(device := c))
  {
    var g := f["device" := e];
    assert g["projects"] == f["projects"];
    assert BoolMember(g, "prisma") == BoolMember(f, "prisma");
    assert BoolMember(g, "nextjs") == BoolMember(f, "nextjs");
  }

  /** Replacing (or adding) one stored project consent decodes to the settings with that project consent. */
  lemma ReplaceProject(f: Obj, s: Settings, key: string, e: Json, c: Consent)
    requires DecodeSettings(JObj(f)) == Some(s)
    requires DecodeConsent(e) == Some(c)
    ensures f["projects"].JObj?
    ensures DecodeSettings(JObj(f["projects" := JObj(f["projects"].fields[key := e])]))
            == Some(s.(projects := s.projects[key := c]))
  {
    var pf := f["projects"].fields;
    var pg := pf[key := e];
    var g := f["projects" := JObj(pg)];
    assert g["device"] == f["device"];
    assert BoolMember(g, "prisma") == BoolMember(f, "prisma");
    assert BoolMember(g, "nextjs") == BoolMember(f, "nextjs");
    assert forall k :: k in pg ==> DecodeConsent(pg[k]).Some?;
    assert (map k | k in pg :: DecodeConsent(pg[k]).value) == s.projects[key := c];
  }

  /** The typed view of a stored value; `None` for shapes the telemetry code never writes. */
  function DecodeConfig(v: Option<Json>): Option<Config> {
    match v
    case None => Some(NotSet)
    case Some(JBool(false)) => Some(OptedOut)
    case Some(j) =>
      var s := DecodeSettings(j);
      if s.Some? then Some(Stored(s.value)) else None
  }

  /** `config.get('telemetry')` */
  function TelemetryValue(store: Obj): Option<Json> {
    if TelemetryKey in store then Some(store[TelemetryKey]) else None
  }

  /** `config.get('telemetry')`, seen through the typed view. */
  function ReadTelemetry(store: Obj): Option<Config> {
    DecodeConfig(TelemetryValue(store))
  }

  /**
   `config.set('telemetry', c)`, or `config.delete('telemetry')` for `NotSet`:
   reading it back gives `c`, and no other key of the file changes.
   */
  function WriteTelemetry(store: Obj, c: Config): (r: Obj)
    ensures ReadTelemetry(r) == Some(c)
    ensures c.NotSet? <==> TelemetryKey !in r
    ensures forall k :: k != TelemetryKey ==> (k in r <==> k in store)
    ensures forall k :: k in r && k != TelemetryKey ==> r[k] == store[k]
  {
    match c
    case NotSet => store - {TelemetryKey}
    case OptedOut => store[TelemetryKey := JBool(false)]
    case Stored(s) => store[TelemetryKey := EncodeSettings(s)]
  }

  /** The second of two writes of the setting decides the file: nothing of the first is left. */
  lemma LastWriteWins(store: Obj, first: Config, second: Config)
    ensures WriteTelemetry(WriteTelemetry(store, first), second) == WriteTelemetry(store, second)
  {
    var once := WriteTelemetry(store, first);
    var twice := WriteTelemetry(once, second);
    var direct := WriteTelemetry(store, second);
    assert twice.Keys == direct.Keys;
    forall k | k in twice
      ensures twice[k] == direct[k]
    {
      if k != TelemetryKey {
        assert twice[k] == once[k] == store[k];
      }
    }
  }
}

=== FILE: environment.dfy ===
/** The process environment (`process.env`) and the telemetry variables read from it. */
module Environment {
  import opened Wrappers
  import Strings

  /** Variable names and their string values; a missing name reads as `undefined`. */
  type Env = map<string, string>

  const Debug := "KEYSTONE_TELEMETRY_DEBUG"
  const Display := "KEYSTONE_TELEMETRY_DISPLAY"
  const Endpoint := "KEYSTONE_TELEMETRY_ENDPOINT"
  const FirstRun := "KEYSTONE_TELEMETRY_FIRST_RUN"
  const Disabled := "KEYSTONE_TELEMETRY_DISABLED"
  const NodeEnv := "NODE_ENV"
  const CheckpointDisable := "CHECKPOINT_DISABLE"
  const NextTelemetryDisabled := "NEXT_TELEMETRY_DISABLED"

  function Var(env: Env, name: string): Option<string> {
    if name in env then Some(env[name]) else None
  }

  /**
   A switch variable is on when it is set to anything but the empty string,
   `'0'` or `'false'`.
   */
  predicate Switch(env: Env, name: string) {
    name in env && env[name] != "" && env[name] != "0" && env[name] != "false"
  }

  /** The values that leave a switch off. */
  lemma SwitchOffValues(env: Env, name: string)
    ensures !Switch(env, name) <==> Var(env, name) in {None, Some(""), Some("0"), Some("false")}
  {
  }

  /** `process.env[name] || fallback` */
  function OrElse(env: Env, name: string, fallback: string): string {
    Strings.Or(Var(env, name).GetOr(""), fallback)
  }
}

=== FILE: json.dfy ===
/**
 JSON values as the configuration store keeps them, with JavaScript truthiness
 and the dotted-key addressing the store uses for `get`/`set`
 (`'telemetry.device.lastSentDate'` names a path of three keys).
 */
module Json {
  import opened Wrappers
  import Strings

  datatype Json =
    | JNull
    | JBool(b: bool)
    | JNum(n: real)
    | JStr(s: string)
    | JArr(items: seq<Json>)
    | JObj(fields: Obj)

  /** A JSON object: its keys and their values. */
  type Obj = map<string, Json>

  /** `!!v`: false, `0`, `""` and `null` are falsy, every array and every object is truthy. */
  predicate Truthy(j: Json) {
    match j
    case JNull => false
    case JBool(b) => b
    case JNum(n) => n != 0.0
    case JStr(s) => s != ""
    case JArr(_) => true
    case JObj(_) => true
  }

  /**
   `{...a, ...b}`: every member of either object, the right operand's value
   winning for a key both hold.
   */
  function Spread(a: Obj, b: Obj): (r: Obj)
    ensures r.Keys == a.Keys + b.Keys
    ensures forall k :: k in b ==> r[k] == b[k]
    ensures forall k :: k in a && k !in b ==> r[k] == a[k]
  {
    a + b
  }

  /** Spreading a one-member object is writing that member. */
  lemma SpreadOne(a: Obj, k: string, v: Json)
    ensures Spread(a, map[k := v]) == a[k := v]
  {
  }

  /** The keys a dotted key addresses: the key split at every `.`. */
  function Path(key: string): (p: seq<string>)
    ensures |p| >= 1
    ensures forall i :: 0 <= i < |p| ==> '.' !in p[i]
    ensures Strings.Join(p, '.') == key
  {
    Strings.Split(key, '.')
  }

  /** Reading a path: the value there, or `None` (`undefined`) when a key is missing or a step is not an object. */
  function Get(o: Obj, path: seq<string>): Option<Json>
    requires |path| > 0
    decreases |path|
  {
    if path[0] !in o then None
    else if |path| == 1 then Some(o[path[0]])
    else
      match o[path[0]]
      case JObj(f) => Get(f, path[1..])
      case _ => None
  }

  /**
   Writing a path: every intermediate step that is not an object is replaced by
   an empty object, and the last key receives `v`.
   */
  function Set(o: Obj, path: seq<string>, v: Json): (r: Obj)
    requires |path| > 0
    ensures r.Keys == o.Keys + {path[0]}
    ensures forall k :: k in o && k != path[0] ==> r[k] == o[k]
    decreases |path|
  {
    if |path| == 1 then o[path[0] := v]
    else
      var child := if path[0] in o && o[path[0]].JObj? then o[path[0]].fields else map[];
      o[path[0] := JObj(Set(child, path[1..], v))]
  }

  /** What was written can be read back. */
  lemma {:induction false} GetSet(o: Obj, path: seq<string>, v: Json)
    requires |path| > 0
    ensures Get(Set(o, path, v), path) == Some(v)
    decreases |path|
  {
    if |path| > 1 {
      var child := if path[0] in o && o[path[0]].JObj? then o[path[0]].fields else map[];
      GetSet(child, path[1..], v);
    }
  }

  /** A write leaves every path that branches off from it before its end untouched. */
  lemma {:induction false} GetSetOther(o: Obj, p: seq<string>, q: seq<string>, v: Json, i: nat)
    requires i < |p| && i < |q|
    requires p[..i] == q[..i] && p[i] != q[i]
    ensures Get(Set(o, p, v), q) == Get(o, q)
    decreases i
  {
    if i > 0 {
      assert p[0] == q[0] by { assert p[..i][0] == q[..i][0]; }
      if |p| > 1 {
        var child := if p[0] in o && o[p[0]].JObj? then o[p[0]].fields else map[];
        assert p[1..][..i - 1] == p[..i][1..];
        assert q[1..][..i - 1] == q[..i][1..];
        GetSetOther(child, p[1..], q[1..], v, i - 1);
        if |q| > 1 {
          if p[0] in o && o[p[0]].JObj? {
          } else {
            assert Get(child, q[1..]) == None;
          }
        }
      }
    }
  }
}

=== FILE: legacy_telemetry.dfy ===
/**
 The earlier, single-event revision of Keystone's telemetry
 (`lib/telemetry/index.ts`). At load it reads the stored setting once and
 turns it into environment switches; each event then merges device and
 project information and posts it, or prints it when debugging.
 */
module LegacyTelemetry {
  import opened Wrappers
  import opened Json
  import opened Consent
  import opened Environment
  import opened Records
  import opened Platform
  import Strings
  import Tally
  import TelemetryScript
  import Telemetry

  /** The namespaces whose dependencies an event reports. */
  const Namespaces: seq<string> := ["@keystone-6", "@opensaas", "@k6-contrib"]

  /** What `keystonePackages` returns when the project's `package.json` cannot be used. */
  const CouldNotRead: map<string, string> := map["error" := "Could not read package.json"]

  /** The module's state after loading: the adjusted environment and the setting as read at load. */
  datatype Loaded = Loaded(env: Env, telemetry: Option<Json>)

  /**
   `!!telemetry && !telemetry[tool]`: a setting is stored and does not allow
   the tool's own telemetry. A stored `false` opts out of every tool, and so
   does a stored array, which is truthy and has no member named after a tool.
   */
  predicate OptsOutOf(telemetry: Option<Json>, tool: string)
    ensures telemetry.None? ==> !OptsOutOf(telemetry, tool)
    ensures telemetry == Some(JBool(false)) ==> !OptsOutOf(telemetry, tool)
    ensures telemetry.Some? && telemetry.value.JArr? ==> OptsOutOf(telemetry, tool)
    ensures telemetry.Some? && telemetry.value.JObj? && BoolMember(telemetry.value.fields, tool).Some? ==>
      (OptsOutOf(telemetry, tool) <==> BoolMember(telemetry.value.fields, tool) != Some(Some(true)))
  {
    && telemetry.Some? && Truthy(telemetry.value)
    && !(telemetry.value.JObj? && tool in telemetry.value.fields && Truthy(telemetry.value.fields[tool]))
  }

  /**
   Lines 10-32: an opted-out setting switches Keystone's telemetry off; a stored
   setting that does not allow Prisma's or Next.js's telemetry switches that
   off too. No other variable changes.
   */
  function Load(env: Env, store: Obj): (l: Loaded)
    ensures l.telemetry == TelemetryValue(store)
    ensures forall n :: n != Disabled && n != CheckpointDisable && n != NextTelemetryDisabled ==> Var(l.env, n) == Var(env, n)
    ensures Var(l.env, Disabled) == if l.telemetry == Some(JBool(false)) then Some("1") else Var(env, Disabled)
    ensures Var(l.env, CheckpointDisable) == if OptsOutOf(l.telemetry, "prisma") then Some("1") else Var(env, CheckpointDisable)
    ensures Var(l.env, NextTelemetryDisabled) ==
      if OptsOutOf(l.telemetry, "nextjs") then Some("1") else Var(env, NextTelemetryDisabled)
  {
    var telemetry := TelemetryValue(store);
    var e1 := if telemetry == Some(JBool(false)) then env[Disabled := "1"] else env;
    var e2 := if OptsOutOf(telemetry, "prisma") then e1[CheckpointDisable := "1"] else e1;
    var e3 := if OptsOutOf(telemetry, "nextjs") then e2[NextTelemetryDisabled := "1"] else e2;
    Loaded(e3, telemetry)
  }

  /** Lines 18-24: the switch variable alone decides. */
  predicate TelemetryDisabled(env: Env)
    ensures TelemetryDisabled(env) <==> Var(env, Disabled) !in {None, Some(""), Some("0"), Some("false")}
  {
    Switch(env, Disabled)
  }

  /**
   Through the typed view: opting out disables telemetry; nothing stored leaves
   the environment alone; a stored setting switches Prisma's and Next.js's
   telemetry off unless it holds `true` for them.
   */
  lemma LoadTyped(env: Env, store: Obj, c: Config)
    requires ReadTelemetry(store) == Some(c)
    ensures c.OptedOut? ==> TelemetryDisabled(Load(env, store).env)
    ensures c.NotSet? ==> Load(env, store).env == env
    ensures c.Stored? ==>
      (c.settings.prisma != Some(true) ==> Var(Load(env, store).env, CheckpointDisable) == Some("1"))
      && (c.settings.prisma == Some(true) ==> Var(Load(env, store).env, CheckpointDisable) == Var(env, CheckpointDisable))
      && (c.settings.nextjs != Some(true) ==> Var(Load(env, store).env, NextTelemetryDisabled) == Some("1"))
      && (c.settings.nextjs == Some(true) ==> Var(Load(env, store).env, NextTelemetryDisabled) == Var(env, NextTelemetryDisabled))
  {
    var t := TelemetryValue(store);
    if c.Stored? {
      var f := t.value.fields;
      assert BoolMember(f, "prisma") == Some(c.settings.prisma);
      assert BoolMember(f, "nextjs") == Some(c.settings.nextjs);
    }
  }

  // ---------------------------------------------------------------- event data

  /** A field of a list's schema: its telemetry tag, if any. */
  datatype FieldConfig = FieldConfig(telemetryTypeName: Option<string>)

  datatype ListConfig = ListConfig(fields: Record<FieldConfig>)

  /** Every field of every list, list by list. */
  function Fields(lists: seq<(string, ListConfig)>): seq<(string, FieldConfig)>
    decreases |lists|
  {
    if |lists| == 0 then []
    else lists[0].1.fields + Fields(lists[1..])
  }

  function AllFields(lists: Option<Record<ListConfig>>): seq<(string, FieldConfig)> {
    if lists.None? then [] else Fields(lists.value)
  }

  /** The bucket of a field: its tag, or `unknown` when it has none. No field is skipped. */
  function Bucket(entry: (string, FieldConfig)): (b: Option<string>)
    ensures b.Some?
    ensures entry.1.telemetryTypeName.Some? && entry.1.telemetryTypeName.value != "" ==> b == entry.1.telemetryTypeName
    ensures entry.1.telemetryTypeName.None? || entry.1.telemetryTypeName == Some("") ==> b == Some(Tally.Unknown)
  {
    var t := entry.1.telemetryTypeName;
    if t.Some? && t.value != "" then t else Some(Tally.Unknown)
  }

  /**
   Lines 113-133: `unknown` is always a key, every other key is the tag of some
   field, and each count is the number of fields in that bucket.
   */
  function FieldCount(lists: Option<Record<ListConfig>>): (r: Tally.Counts)
    ensures Tally.Unknown in r
    ensures forall k :: k in r <==> k == Tally.Unknown || Tally.Count(AllFields(lists), Bucket, k) > 0
    ensures forall k :: k in r ==> r[k] == Tally.Count(AllFields(lists), Bucket, k)
  {
    if lists.None? then map[Tally.Unknown := 0]
    else Tally.Tally(map[Tally.Unknown := 0], Fields(lists.value), Bucket)
  }

  /** Every field is counted exactly once. */
  lemma FieldCountSum(lists: Option<Record<ListConfig>>)
    ensures Tally.Sum(FieldCount(lists)) == |AllFields(lists)|
  {
    var init: Tally.Counts := map[Tally.Unknown := 0];
    Tally.SumRemove(init, Tally.Unknown);
    assert init - {Tally.Unknown} == map[];
    Tally.TallySum(init, AllFields(lists), Bucket);
    var xs := AllFields(lists);
    forall i | 0 <= i < |xs| ensures Bucket(xs[i]).Some? { }
    Tally.CountedAll(xs, Bucket);
  }

  /** A dependency in one of the reported namespaces (`/^(@keystone-6|@opensaas|@k6-contrib)/`). */
  predicate Namespaced(name: string)
    ensures Namespaced(name) <==>
      || Strings.StartsWith(name, "@keystone-6")
      || Strings.StartsWith(name, "@opensaas")
      || Strings.StartsWith(name, "@k6-contrib")
  {
    assert Namespaces[0] == "@keystone-6" && Namespaces[1] == "@opensaas" && Namespaces[2] == "@k6-contrib";
    exists i :: 0 <= i < |Namespaces| && Strings.StartsWith(name, Namespaces[i])
  }

  /**
   Lines 95-111: the project's dependencies in the reported namespaces, with
   their version ranges; the error entry alone when `package.json` or its
   dependencies cannot be read.
   */
  function KeystonePackages(dependencies: Option<map<string, string>>): (r: map<string, string>)
    ensures dependencies.None? ==> r == CouldNotRead
    ensures dependencies.Some? ==> forall n :: n in r <==> n in dependencies.value && Namespaced(n)
    ensures dependencies.Some? ==> forall n :: n in r ==> r[n] == dependencies.value[n]
  {
    if dependencies.None? then CouldNotRead
    else map n | n in dependencies.value && Namespaced(n) :: dependencies.value[n]
  }

  /** Lines 85-93: today's date, the operating system and the Node.js major version. */
  datatype DeviceInfo = DeviceInfo(last: string, os: string, node: string)

  /** Lines 143-150: today's date, the list count, the namespaced dependencies and the field counts. */
  datatype ProjectInfo = ProjectInfo(last: string, lists: nat, versions: map<string, string>, fields: Tally.Counts)

  /** The merged event body. */
  datatype Event = Event(
    last: string, os: string, node: string,
    lists: nat, versions: map<string, string>, fields: Tally.Counts,
    dbProvider: string, eventType: string)

  /**
   Lines 85-93: the calendar day of the timestamp, the operating system, and
   `split('.')[0]` of the Node.js version.
   */
  function DeviceInfoOf(h: Host): (d: DeviceInfo)
    ensures Strings.StartsWith(h.now, d.last) && |d.last| == if |h.now| < 10 then |h.now| else 10
    ensures d.os == h.platform
    ensures Strings.StartsWith(h.nodeVersion, d.node) && '.' !in d.node
    ensures d.node == h.nodeVersion || h.nodeVersion[|d.node|] == '.'
  {
    DeviceInfo(TodaysDate(h.now), h.platform, MajorVersion(h.nodeVersion))
  }

  /**
   Lines 143-150: the same calendar day as the device part, the number of
   lists, the namespaced dependencies (or the error entry), and field counts
   that account for every field once.
   */
  function ProjectInfoOf(h: Host, lists: Option<Record<ListConfig>>, dependencies: Option<map<string, string>>): (p: ProjectInfo)
    ensures p.last == DeviceInfoOf(h).last
    ensures lists.None? ==> p.lists == 0
    ensures lists.Some? ==> p.lists == |Keys(lists.value)|
    ensures dependencies.None? ==> p.versions == CouldNotRead
    ensures dependencies.Some? ==> forall n :: n in p.versions <==> n in dependencies.value && Namespaced(n)
    ensures dependencies.Some? ==> forall n :: n in p.versions ==> p.versions[n] == dependencies.value[n]
    ensures Tally.Unknown in p.fields && Tally.Sum(p.fields) == |AllFields(lists)|
    ensures forall k :: k in p.fields <==> k == Tally.Unknown || Tally.Count(AllFields(lists), Bucket, k) > 0
    ensures forall k :: k in p.fields ==> p.fields[k] == Tally.Count(AllFields(lists), Bucket, k)
  {
    FieldCountSum(lists);
    ProjectInfo(TodaysDate(h.now), KeyCount(lists), KeystonePackages(dependencies), FieldCount(lists))
  }

  // ---------------------------------------------------------------- event body as JSON

  function CountsJson(m: Tally.Counts): Obj {
    map k | k in m :: JNum(m[k] as real)
  }

  function VersionsJson(m: map<string, string>): Obj {
    map k | k in m :: JStr(m[k])
  }

  /** The object `deviceInfo()` returns. */
  function DeviceJson(d: DeviceInfo): Obj {
    map["last" := JStr(d.last), "os" := JStr(d.os), "node" := JStr(d.node)]
  }

  /** The object `projectInfo()` returns. */
  function ProjectJson(p: ProjectInfo): Obj {
    map["last" := JStr(p.last), "lists" := JNum(p.lists as real),
        "versions" := JObj(VersionsJson(p.versions)), "fields" := JObj(CountsJson(p.fields))]
  }

  /** The object an event is sent as. */
  function EventJson(e: Event): Obj {
    map["last" := JStr(e.last), "os" := JStr(e.os), "node" := JStr(e.node),
        "lists" := JNum(e.lists as real), "versions" := JObj(VersionsJson(e.versions)),
        "fields" := JObj(CountsJson(e.fields)),
        "dbProvider" := JStr(e.dbProvider), "eventType" := JStr(e.eventType)]
  }

  /**
   Lines 49-54, `{...deviceInfo(), ...projectInfo(), dbProvider, eventType}`:
   the event's object is the spread of the device object, the project object
   and the two named members, later parts winning.
   */
  function Merge(d: DeviceInfo, p: ProjectInfo, dbProvider: string, eventType: string): (e: Event)
    ensures EventJson(e) == Spread(Spread(Spread(DeviceJson(d), ProjectJson(p)),
                                          map["dbProvider" := JStr(dbProvider)]),
                                   map["eventType" := JStr(eventType)])
  {
    var e := Event(p.last, d.os, d.node, p.lists, p.versions, p.fields, dbProvider, eventType);
    DeviceUnderProject(d, p);
    var parts := map["os" := JStr(d.os), "node" := JStr(d.node)] + ProjectJson(p);
    SpreadOne(parts, "dbProvider", JStr(dbProvider));
    SpreadOne(parts["dbProvider" := JStr(dbProvider)], "eventType", JStr(eventType));
    EventMembers(e, parts);
    e
  }

  /** Spreading the project object over the device object leaves the device's `os` and `node`. */
  lemma DeviceUnderProject(d: DeviceInfo, p: ProjectInfo)
    ensures Spread(DeviceJson(d), ProjectJson(p)) == map["os" := JStr(d.os), "node" := JStr(d.node)] + ProjectJson(p)
  {
    assert "os" != "last" && "node" != "last";
  }

  /** The event object, member by member, is the device's `os` and `node` with the project object and the two names. */
  lemma EventMembers(e: Event, parts: Obj)
    requires parts == map["os" := JStr(e.os), "node" := JStr(e.node)]
                      + ProjectJson(ProjectInfo(e.last, e.lists, e.versions, e.fields))
    ensures EventJson(e) == parts["dbProvider" := JStr(e.dbProvider)]["eventType" := JStr(e.eventType)]
  {
    var m := parts["dbProvider" := JStr(e.dbProvider)]["eventType" := JStr(e.eventType)];
    assert EventJson(e).Keys == m.Keys;
    forall k | k in m
      ensures EventJson(e)[k] == m[k]
    {
    }
  }

  /**
   When the two parts hold the same day, the merged event keeps every member of
   both: the project's `last` overrides the device's without changing it.
   */
  lemma MergeKeepsBothParts(d: DeviceInfo, p: ProjectInfo, dbProvider: string, eventType: string)
    requires d.last == p.last
    ensures var ej := EventJson(Merge(d, p, dbProvider, eventType));
            && (forall k :: k in DeviceJson(d) ==> k in ej && ej[k] == DeviceJson(d)[k])
            && (forall k :: k in ProjectJson(p) ==> k in ej && ej[k] == ProjectJson(p)[k])
  {
    MergeKeepsDevice(d, p, dbProvider, eventType);
    MergeKeepsProject(d, p, dbProvider, eventType);
  }

  lemma MergeKeepsDevice(d: DeviceInfo, p: ProjectInfo, dbProvider: string, eventType: string)
    requires d.last == p.last
    ensures var ej := EventJson(Merge(d, p, dbProvider, eventType));
            forall k :: k in DeviceJson(d) ==> k in ej && ej[k] == DeviceJson(d)[k]
  {
    var ej := EventJson(Merge(d, p, dbProvider, eventType));
    forall k | k in DeviceJson(d)
      ensures k in ej && ej[k] == DeviceJson(d)[k]
    {
      assert k == "last" || k == "os" || k == "node";
    }
  }

  lemma MergeKeepsProject(d: DeviceInfo, p: ProjectInfo, dbProvider: string, eventType: string)
    ensures var ej := EventJson(Merge(d, p, dbProvider, eventType));
            forall k :: k in ProjectJson(p) ==> k in ej && ej[k] == ProjectJson(p)[k]
  {
    var ej := EventJson(Merge(d, p, dbProvider, eventType));
    forall k | k in ProjectJson(p)
      ensures k in ej && ej[k] == ProjectJson(p)[k]
    {
      assert k == "last" || k == "lists" || k == "versions" || k == "fields";
    }
  }

  /** The event of one call keeps every member of its device part and of its project part. */
  lemma EventKeepsBothParts(h: Host, lists: Option<Record<ListConfig>>, dependencies: Option<map<string, string>>,
                            dbProvider: string, eventType: string)
    ensures var d := DeviceInfoOf(h);
            var p := ProjectInfoOf(h, lists, dependencies);
            var ej := EventJson(Merge(d, p, dbProvider, eventType));
            && (forall k :: k in DeviceJson(d) ==> k in ej && ej[k] == DeviceJson(d)[k])
            && (forall k :: k in ProjectJson(p) ==> k in ej && ej[k] == ProjectJson(p)[k])
  {
    MergeKeepsBothParts(DeviceInfoOf(h), ProjectInfoOf(h, lists, dependencies), dbProvider, eventType);
  }

  // ---------------------------------------------------------------- sending

  /** What one call does, in order. */
  datatype Effect =
    | ScriptCalled(output: seq<TelemetryScript.Output>)
    | Announced(event: Event)
    | Dispatched(channel: Channel, url: string, event: Event)

  datatype Outcome = Outcome(store: Obj, effects: seq<Effect>)

  /** The answers handed to the command; its default branch asks nothing. */
  const NoAnswers := TelemetryScript.Answers(false, false)

  /**
   Lines 34-83. Nothing happens when the switch is on. Otherwise, when nothing
   was stored at load, the command is run as `telemetry('init')`, which binds
   `'init'` to the directory and leaves the option undefined; then the merged
   event is announced on the console and printed (when debugging) or posted to
   `<endpoint>/v1/event`. No consent is looked at.
   */
  function SendTelemetryEvent(l: Loaded, store: Obj, h: Host, eventType: string, cwd: string, dbProvider: string,
                              lists: Option<Record<ListConfig>>, dependencies: Option<map<string, string>>): (r: Outcome)
    ensures TelemetryDisabled(l.env) ==> r == Outcome(store, [])
    ensures r.store == store
    ensures !TelemetryDisabled(l.env) ==>
      var e := Merge(DeviceInfoOf(h), ProjectInfoOf(h, lists, dependencies), dbProvider, eventType);
      var url := OrElse(l.env, Endpoint, h.defaultEndpoint) + "/v1/event";
      var channel := if Var(l.env, Debug) == Some("1") then Console else Post;
      r.effects == (if l.telemetry.None? then [ScriptCalled([TelemetryScript.UsageText("")])] else [])
                   + [Announced(e), Dispatched(channel, url, e)]
  {
    if TelemetryDisabled(l.env) then Outcome(store, [])
    else
      var init := if l.telemetry.None? then TelemetryScript.Telemetry(store, "init", None, NoAnswers, h.now)
                  else TelemetryScript.Outcome(store, []);
      var e := Merge(DeviceInfoOf(h), ProjectInfoOf(h, lists, dependencies), dbProvider, eventType);
      var url := OrElse(l.env, Endpoint, h.defaultEndpoint) + "/v1/event";
      var channel := if Var(l.env, Debug) == Some("1") then Console else Post;
      var effects := (if l.telemetry.None? then [ScriptCalled(init.output)] else []) + [Announced(e), Dispatched(channel, url, e)];
      Outcome(init.store, effects)
  }

  /** Opting out stops every event of a process loaded afterwards. */
  lemma OptedOutSendsNothing(env: Env, store: Obj, h: Host, eventType: string, cwd: string, dbProvider: string,
                             lists: Option<Record<ListConfig>>, dependencies: Option<map<string, string>>)
    requires ReadTelemetry(store) == Some(OptedOut)
    ensures SendTelemetryEvent(Load(env, store), store, h, eventType, cwd, dbProvider, lists, dependencies).effects == []
  {
    LoadTyped(env, store, OptedOut);
  }

  /**
   Every other stored value, consent declined or never asked for included, lets
   the event out when the switch was off before load.
   */
  lemma ConsentNotConsulted(env: Env, store: Obj, c: Config, h: Host, eventType: string, cwd: string,
                            dbProvider: string, lists: Option<Record<ListConfig>>,
                            dependencies: Option<map<string, string>>)
    requires ReadTelemetry(store) == Some(c) && c != OptedOut
    requires !TelemetryDisabled(env)
    ensures var r := SendTelemetryEvent(Load(env, store), store, h, eventType, cwd, dbProvider, lists, dependencies);
            |r.effects| >= 2 && r.effects[|r.effects| - 1].Dispatched?
  {
    assert TelemetryValue(store) != Some(JBool(false));
  }

  /** Each fixed package name of the later revision lies in one of the namespaces. */
  lemma PackageNamesNamespaced()
    ensures forall i :: 0 <= i < |Telemetry.PackageNames| ==> Namespaced(Telemetry.PackageNames[i])
  {
    var names := Telemetry.PackageNames;
    assert Strings.StartsWith(names[0], Namespaces[0]) by { assert names[0][..11] == Namespaces[0]; }
    assert Strings.StartsWith(names[1], Namespaces[0]) by { assert names[1][..11] == Namespaces[0]; }
    assert Strings.StartsWith(names[2], Namespaces[0]) by { assert names[2][..11] == Namespaces[0]; }
    assert Strings.StartsWith(names[3], Namespaces[0]) by { assert names[3][..11] == Namespaces[0]; }
    assert Strings.StartsWith(names[4], Namespaces[0]) by { assert names[4][..11] == Namespaces[0]; }
    assert Strings.StartsWith(names[5], Namespaces[1]) by { assert names[5][..9] == Namespaces[1]; }
  }

  /**
   A hypothetical comparison that the code itself never makes: this revision
   reads the version ranges of `package.json`, the later one the installed
   versions. Fed one map for both, the later revision reports a part of what
   this one reports, because the fixed package names are all in the namespaces.
   */
  lemma RevisionsReportPackages(installed: map<string, string>)
    ensures var later := Telemetry.KeystonePackages(installed);
            var earlier := KeystonePackages(Some(installed));
            later.Keys <= earlier.Keys && forall n :: n in later ==> later[n] == earlier[n]
  {
    PackageNamesNamespaced();
    var later := Telemetry.KeystonePackages(installed);
    forall n | n in later ensures Namespaced(n) {
      var i :| 0 <= i < |Telemetry.PackageNames| && Telemetry.PackageNames[i] == n;
    }
  }

  /** A namespaced dependency is reported, `lodash` is not. */
  lemma KeystonePackagesExample()
    ensures KeystonePackages(Some(map["@keystone-6/core" := "^1.0.0", "lodash" := "^4.17.21"]))
            == map["@keystone-6/core" := "^1.0.0"]
  {
    assert Namespaced("@keystone-6/core") by {
      assert Strings.StartsWith("@keystone-6/core", Namespaces[0]) by { assert "@keystone-6/core"[..11] == Namespaces[0]; }
    }
    assert !Namespaced("lodash") by {
      forall i | 0 <= i < |Namespaces| ensures !Strings.StartsWith("lodash", Namespaces[i]) {
        assert Namespaces[i][0] == '@';
      }
    }
  }

  /** The fields of the later revision's example, as this revision's schema sees them. */
  const ExampleFields: Record<FieldConfig> :=
    [("id", FieldConfig(None)), ("title", FieldConfig(Some("text"))), ("authorId", FieldConfig(None))]

  lemma ExampleCounts(k: string)
    ensures Tally.Count(ExampleFields, Bucket, k) == if k == Tally.Unknown then 2 else if k == "text" then 1 else 0
  {
    var xs := ExampleFields;
    assert Bucket(xs[0]) == Some(Tally.Unknown) && Bucket(xs[1]) == Some("text") && Bucket(xs[2]) == Some(Tally.Unknown);
    assert xs[1..][0] == xs[1] && xs[1..][1..][0] == xs[2] && xs[1..][1..][1..] == [];
  }

  /** In this revision both untagged fields, the id and the relation, count as `unknown`. */
  lemma FieldCountExample()
    ensures FieldCount(Some([("Post", ListConfig(ExampleFields))])) == map[Tally.Unknown := 2, "text" := 1]
  {
    var lists: Record<ListConfig> := [("Post", ListConfig(ExampleFields))];
    assert Fields(lists) == ExampleFields by {
      assert Fields(lists[1..]) == [];
    }
    forall k ensures Tally.Count(ExampleFields, Bucket, k) == if k == Tally.Unknown then 2 else if k == "text" then 1 else 0 {
      ExampleCounts(k);
    }
    var r := FieldCount(Some(lists));
    assert r.Keys == {Tally.Unknown, "text"};
  }
}

=== FILE: lifecycle.dfy ===
/**
 What the configuration file holds after the writes of `lib/telemetry.ts`, and
 what a later process reading that file does.
 */
module Lifecycle {
  import opened Wrappers
  import opened Json
  import opened Consent
  import opened Platform
  import opened Records
  import Strings
  import opened Telemetry

  /** The date key of a project addresses the project's entry, when the directory holds no `.`. */
  lemma ProjectDatePathOfKey(cwd: string)
    requires '.' !in cwd
    ensures Path(ProjectDateKey(cwd)) == [TelemetryKey, "projects", cwd, "lastSentDate"]
  {
    var parts := [TelemetryKey, "projects", cwd, "lastSentDate"];
    assert Strings.Join(parts[3..], '.') == "lastSentDate";
    assert Strings.Join(parts[2..], '.') == cwd + ".lastSentDate";
    assert Strings.Join(parts[1..], '.') == "projects." + cwd + ".lastSentDate";
    assert ProjectDateKey(cwd) == Strings.Join(parts, '.');
    Strings.SplitJoin(parts, '.');
  }

  /** The copy key addresses a sibling of `projects` named `projects` + directory, not the directory's entry. */
  lemma CopyPathOfKey(cwd: string)
    requires '.' !in cwd
    ensures Path(CopyKey(cwd)) == [TelemetryKey, "projects" + cwd]
  {
    var parts := [TelemetryKey, "projects" + cwd];
    assert Strings.Join(parts[1..], '.') == "projects" + cwd;
    assert CopyKey(cwd) == Strings.Join(parts, '.');
    Strings.SplitJoin(parts, '.');
  }

  /**
   Line 92: the copy of the default consent lands beside `projects`, so the file
   read back holds exactly the settings it held before: the directory still has
   no entry of its own there.
   */
  lemma {:induction false} PersistedCopyMisplaced(store: Obj, s: Settings, cwd: string, v: Json)
    requires ReadTelemetry(store) == Some(Stored(s))
    requires cwd != "" && '.' !in cwd
    ensures ReadTelemetry(Set(store, Path(CopyKey(cwd)), v)) == Some(Stored(s))
  {
    CopyPathOfKey(cwd);
    var f := store[TelemetryKey].fields;
    var key := "projects" + cwd;
    assert key != "projects" && key != "device" && key != "prisma" && key != "nextjs" by {
      assert key[..8] == "projects";
    }
    SetTwo(store, TelemetryKey, key, v);
    var g := f[key := v];
    assert g["projects"] == f["projects"] && g["device"] == f["device"];
    assert BoolMember(g, "prisma") == BoolMember(f, "prisma");
    assert BoolMember(g, "nextjs") == BoolMember(f, "nextjs");
    assert DecodeSettings(JObj(g)) == DecodeSettings(JObj(f));
  }

  /** Setting `lastSentDate` inside a stored consent (or in a fresh object) decodes to the stamped consent. */
  lemma StampDecodes(previous: Option<Json>, c: Option<Consent>, today: string)
    requires previous.None? ==> c.None?
    requires previous.Some? ==> c.Some? && DecodeConsent(previous.value) == c
    ensures var fields := if previous.Some? && previous.value.JObj? then previous.value.fields else map[];
            DecodeConsent(JObj(fields["lastSentDate" := JStr(today)])) == Some(Stamped(c, today))
  {
    var fields := if previous.Some? && previous.value.JObj? then previous.value.fields else map[];
    assert StringMember(fields["lastSentDate" := JStr(today)], "informedAt") == StringMember(fields, "informedAt");
  }

  /** The write of a two-key path replaces one member of an object member. */
  lemma SetTwo(o: Obj, a: string, b: string, v: Json)
    requires a in o && o[a].JObj?
    ensures Set(o, [a, b], v) == o[a := JObj(o[a].fields[b := v])]
  {
    assert [a, b][1..] == [b];
  }

  /** The write of a three-key path: the object on the way may be missing or not an object. */
  lemma SetThree(o: Obj, a: string, b: string, c: string, v: Json)
    requires a in o && o[a].JObj?
    ensures var f := o[a].fields;
            var child := if b in f && f[b].JObj? then f[b].fields else map[];
            Set(o, [a, b, c], v) == o[a := JObj(f[b := JObj(child[c := v])])]
  {
    var f := o[a].fields;
    var child := if b in f && f[b].JObj? then f[b].fields else map[];
    assert [b, c][1..] == [c];
    assert Set(f, [b, c], v) == f[b := JObj(child[c := v])];
    assert [a, b, c][1..] == [b, c];
  }

  /** The write of a four-key path whose first two steps are objects. */
  lemma SetFour(o: Obj, a: string, b: string, c: string, d: string, v: Json)
    requires a in o && o[a].JObj?
    requires b in o[a].fields && o[a].fields[b].JObj?
    ensures var pf := o[a].fields[b].fields;
            var child := if c in pf && pf[c].JObj? then pf[c].fields else map[];
            Set(o, [a, b, c, d], v) == o[a := JObj(o[a].fields[b := JObj(pf[c := JObj(child[d := v])])])]
  {
    assert [a, b, c, d][1..] == [b, c, d];
    SetThree(o[a].fields, b, c, d, v);
  }

  /**
   Line 232: setting a project's last-sent date in the file. Read back, the
   directory's consent is stamped with the date (an entry the file lacked is
   created holding only the date) and nothing else changes.
   */
  lemma ProjectStampPersisted(store: Obj, s: Settings, cwd: string, today: string)
    requires ReadTelemetry(store) == Some(Stored(s))
    requires '.' !in cwd
    ensures ReadTelemetry(Set(store, Path(ProjectDateKey(cwd)), JStr(today)))
            == Some(Stored(s.(projects := s.projects[cwd := Stamped(Lookup(s.projects, cwd), today)])))
  {
    ProjectDatePathOfKey(cwd);
    assert TelemetryKey in store && store[TelemetryKey].JObj?;
    var f := store[TelemetryKey].fields;
    var pf := f["projects"].fields;
    var before := if cwd in pf then Some(pf[cwd]) else None;
    assert before.Some? ==> DecodeConsent(before.value) == Lookup(s.projects, cwd);
    StampDecodes(before, Lookup(s.projects, cwd), today);
    var child := if cwd in pf && pf[cwd].JObj? then pf[cwd].fields else map[];
    var entry := JObj(child["lastSentDate" := JStr(today)]);
    ReplaceProject(f, s, cwd, entry, Stamped(Lookup(s.projects, cwd), today));
    SetFour(store, TelemetryKey, "projects", cwd, "lastSentDate", JStr(today));
  }

  /**
   Line 257: setting the device's last-sent date in the file. Read back, the
   device consent is stamped with the date and nothing else changes.
   */
  lemma DeviceStampPersisted(store: Obj, s: Settings, today: string)
    requires ReadTelemetry(store) == Some(Stored(s))
    ensures ReadTelemetry(Set(store, Path(DeviceDateKey), JStr(today)))
            == Some(Stored(s.(device := Stamped(Some(s.device), today))))
  {
    var stamped := Stamped(Some(s.device), today);
    assert ReadTelemetry(Set(store, DeviceDatePath, JStr(today))) == Some(Stored(s.(device := stamped))) by {
      assert TelemetryKey in store && store[TelemetryKey].JObj?;
      var f := store[TelemetryKey].fields;
      StampDecodes(Some(f["device"]), Some(s.device), today);
      var child := if f["device"].JObj? then f["device"].fields else map[];
      var entry := JObj(child["lastSentDate" := JStr(today)]);
      ReplaceDevice(f, s, entry, stamped);
      SetThree(store, TelemetryKey, "device", "lastSentDate", JStr(today));
    }
    DeviceDatePathOfKey();
  }

  /** A consent stamped with today's date is not due again today unless debugging. */
  lemma StampedNotDue(c: Option<Consent>, today: string)
    requires today != ""
    ensures !Due(Stamped(c, today), today, false)
  {
    Strings.LessIrreflexive(today);
  }

  /** A consent last sent on an earlier date is due. */
  lemma EarlierDateDue(informedAt: Option<string>, last: string, today: string, debugging: bool)
    requires Strings.Less(last, today)
    ensures Due(Granted(informedAt, Some(last)), today, debugging)
  {
  }

  /** A consent last sent on a later date (the clock went back) is not due unless debugging. */
  lemma LaterDateNotDue(informedAt: Option<string>, last: string, today: string)
    requires Strings.Less(today, last)
    ensures !Due(Granted(informedAt, Some(last)), today, false)
  {
    Strings.LessAsymmetric(today, last);
  }

  /**
   What the file holds after the two sends of `sendTelemetryEvent`, given the
   consents they were handed: the directory's entry stamped when the project
   consent was due, the device consent stamped when the device consent was due.
   */
  lemma SendBothPersisted(run: Run, h: Host, cwd: string, lists: Option<Record<InitialisedList>>,
                          dbProviderName: string, s: Settings, project: Consent, device: Consent)
    requires ReadTelemetry(run.store) == Some(Stored(s))
    requires '.' !in cwd
    ensures var today := TodaysDate(h.now);
            var debugging := IsDebugging(run.env);
            ReadTelemetry(SendBoth(run, h, cwd, lists, dbProviderName, project, device).store)
            == Some(Stored(s.(projects := if Due(project, today, debugging)
                                          then s.projects[cwd := Stamped(Lookup(s.projects, cwd), today)]
                                          else s.projects,
                              device := if Due(device, today, debugging) then Stamped(Some(s.device), today)
                                        else s.device)))
  {
    var today := TodaysDate(h.now);
    var debugging := IsDebugging(run.env);
    var r2 := if project.Granted? then SendProjectTelemetryEvent(run, h, cwd, lists, dbProviderName, project) else run;
    var s2 := s.(projects := if Due(project, today, debugging)
                             then s.projects[cwd := Stamped(Lookup(s.projects, cwd), today)]
                             else s.projects);
    assert ReadTelemetry(r2.store) == Some(Stored(s2)) by {
      if Due(project, today, debugging) {
        ProjectStampPersisted(run.store, s, cwd, today);
      } else {
        assert s2 == s;
      }
    }
    if Due(device, today, debugging) {
      DeviceStampPersisted(r2.store, s2, today);
    } else {
      assert s2.(device := s.device) == s2;
    }
  }

  /** When neither consent a directory gets is due, `sendTelemetryEvent` sends nothing. */
  lemma NothingDue(run: Run, h: Host, cwd: string, lists: Option<Record<InitialisedList>>, dbProviderName: string)
    requires run.telemetry.Stored? && ProjectConsent(run.telemetry.settings, cwd).Some?
    requires !Due(ProjectConsent(run.telemetry.settings, cwd).value, TodaysDate(h.now), IsDebugging(run.env))
    requires !Due(run.telemetry.settings.device, TodaysDate(h.now), IsDebugging(run.env))
    ensures SendTelemetryEvent(run, h, cwd, lists, dbProviderName).sent == run.sent
  {
  }

  /**
   Once per day: with the file and memory agreeing, a later process of the same
   day, at any time of that day, that reads the file back sends nothing more,
   unless debugging. This holds for a directory seen for the first time too,
   whose entry the date write creates.
   */
  lemma OncePerDay(run: Run, h: Host, later: Host, cwd: string, lists: Option<Record<InitialisedList>>,
                   dbProviderName: string)
    requires Open(h, run) && ReadTelemetry(run.store) == Some(run.telemetry)
    requires ProjectConsent(run.telemetry.settings, cwd).Some?
    requires cwd != "" && '.' !in cwd
    requires h.now != "" && !IsDebugging(run.env)
    requires TodaysDate(later.now) == TodaysDate(h.now)
    ensures var r := SendTelemetryEvent(run, h, cwd, lists, dbProviderName);
            && ReadTelemetry(r.store).Some?
            && SendTelemetryEvent(r.(telemetry := ReadTelemetry(r.store).value), later, cwd, lists, dbProviderName).sent
               == r.sent
  {
    if cwd in run.telemetry.settings.projects {
      OncePerDayOwnEntry(run, h, later, cwd, lists, dbProviderName);
    } else {
      OncePerDayNewDirectory(run, h, later, cwd, lists, dbProviderName);
    }
  }

  /** `OncePerDay` for a directory holding its own entry. */
  lemma OncePerDayOwnEntry(run: Run, h: Host, later: Host, cwd: string, lists: Option<Record<InitialisedList>>,
                           dbProviderName: string)
    requires Open(h, run) && ReadTelemetry(run.store) == Some(run.telemetry)
    requires cwd in run.telemetry.settings.projects && '.' !in cwd
    requires h.now != "" && !IsDebugging(run.env)
    requires TodaysDate(later.now) == TodaysDate(h.now)
    ensures var r := SendTelemetryEvent(run, h, cwd, lists, dbProviderName);
            && ReadTelemetry(r.store).Some?
            && SendTelemetryEvent(r.(telemetry := ReadTelemetry(r.store).value), later, cwd, lists, dbProviderName).sent
               == r.sent
  {
    var s := run.telemetry.settings;
    var today := TodaysDate(h.now);
    var r := SendTelemetryEvent(run, h, cwd, lists, dbProviderName);
    OwnEntry(run, h, cwd, lists, dbProviderName);
    SendBothPersisted(run, h, cwd, lists, dbProviderName, s, s.projects[cwd], s.device);
    var s2 := ReadTelemetry(r.store).value.settings;
    assert !Due(s2.projects[cwd], today, false) by {
      if Due(s.projects[cwd], today, false) {
        StampedNotDue(Some(s.projects[cwd]), today);
      }
    }
    assert !Due(s2.device, today, false) by {
      if Due(s.device, today, false) {
        StampedNotDue(Some(s.device), today);
      }
    }
    NothingDue(r.(telemetry := Stored(s2)), later, cwd, lists, dbProviderName);
  }

  /**
   `OncePerDay` for a directory seen for the first time: the next process finds
   the entry the date write created, or, when the default consent was not due,
   finds no entry and falls back to the same default.
   */
  lemma OncePerDayNewDirectory(run: Run, h: Host, later: Host, cwd: string, lists: Option<Record<InitialisedList>>,
                               dbProviderName: string)
    requires Open(h, run) && ReadTelemetry(run.store) == Some(run.telemetry)
    requires cwd !in run.telemetry.settings.projects && DefaultProject in run.telemetry.settings.projects
    requires cwd != "" && '.' !in cwd
    requires h.now != "" && !IsDebugging(run.env)
    requires TodaysDate(later.now) == TodaysDate(h.now)
    ensures var r := SendTelemetryEvent(run, h, cwd, lists, dbProviderName);
            && ReadTelemetry(r.store).Some?
            && SendTelemetryEvent(r.(telemetry := ReadTelemetry(r.store).value), later, cwd, lists, dbProviderName).sent
               == r.sent
  {
    var s := run.telemetry.settings;
    var today := TodaysDate(h.now);
    var r := SendTelemetryEvent(run, h, cwd, lists, dbProviderName);
    NewDirectoryPersisted(run, h, cwd, lists, dbProviderName);
    var s2 := ReadTelemetry(r.store).value.settings;
    assert ProjectConsent(s2, cwd).Some? && !Due(ProjectConsent(s2, cwd).value, today, false) by {
      if Due(s.projects[DefaultProject], today, false) {
        assert ProjectConsent(s2, cwd) == Some(Stamped(None, today));
        StampedNotDue(None, today);
      } else {
        assert ProjectConsent(s2, cwd) == Some(s.projects[DefaultProject]);
      }
    }
    assert !Due(s2.device, today, false) by {
      if Due(s.device, today, false) {
        StampedNotDue(Some(s.device), today);
      }
    }
    NothingDue(r.(telemetry := Stored(s2)), later, cwd, lists, dbProviderName);
  }

  /**
   A directory seen for the first time: the copy of the default consent never
   reaches the directory's entry in the file. The entry appears only through
   the project date write, holding the date and no informed date, and only
   when the default consent was due; the device consent is stamped when due.
   */
  lemma NewDirectoryPersisted(run: Run, h: Host, cwd: string, lists: Option<Record<InitialisedList>>,
                              dbProviderName: string)
    requires Open(h, run) && ReadTelemetry(run.store) == Some(run.telemetry)
    requires cwd !in run.telemetry.settings.projects && DefaultProject in run.telemetry.settings.projects
    requires cwd != "" && '.' !in cwd
    ensures var s := run.telemetry.settings;
            var today := TodaysDate(h.now);
            var debugging := IsDebugging(run.env);
            ReadTelemetry(SendTelemetryEvent(run, h, cwd, lists, dbProviderName).store)
            == Some(Stored(s.(projects := if Due(s.projects[DefaultProject], today, debugging)
                                          then s.projects[cwd := Granted(None, Some(today))]
                                          else s.projects,
                              device := if Due(s.device, today, debugging) then Stamped(Some(s.device), today)
                                        else s.device)))
  {
    var s := run.telemetry.settings;
    var r1 := CopyDefault(run, cwd);
    PersistedCopyMisplaced(run.store, s, cwd, EncodeConsent(s.projects[DefaultProject]));
    assert ReadTelemetry(r1.store) == Some(Stored(s));
    SendBothPersisted(r1, h, cwd, lists, dbProviderName, s, s.projects[DefaultProject], s.device);
  }

  /** The run that asks for consent sends nothing. */
  lemma FirstRunSendsNothing(run: Run, h: Host, cwd: string, lists: Option<Record<InitialisedList>>,
                             dbProviderName: string)
    requires !TelemetryDisabled(h, run.env, run.telemetry) && run.telemetry.NotSet?
    ensures var r := EnsureTelemetry(run, h, cwd);
            && SendTelemetryEvent(r, h, cwd, lists, dbProviderName) == r
            && r.sent == run.sent
            && r.notified
  {
  }

  /**
   The consent notice is printed at most once per process: after the run that
   stored consent, a further `ensureTelemetry`, for any directory and at any
   moment, changes nothing.
   */
  lemma NotifiedOnce(run: Run, h: Host, later: Host, cwd: string, dir: string)
    requires !TelemetryDisabled(h, run.env, run.telemetry) && run.telemetry.NotSet?
    ensures var r := EnsureTelemetry(run, h, cwd);
            && r.notified
            && EnsureTelemetry(r, later, dir) == r
  {
  }

  /** For a directory with its own entry, `sendTelemetryEvent` copies nothing and goes straight to the two sends. */
  lemma OwnEntry(run: Run, h: Host, cwd: string, lists: Option<Record<InitialisedList>>, dbProviderName: string)
    requires Open(h, run) && cwd in run.telemetry.settings.projects
    ensures SendTelemetryEvent(run, h, cwd, lists, dbProviderName)
            == SendBoth(run, h, cwd, lists, dbProviderName, run.telemetry.settings.projects[cwd],
                        run.telemetry.settings.device)
  {
    assert CopyDefault(run, cwd) == run;
  }

  /** When both consents a directory gets are due, both events go out, project first. */
  lemma BothDue(run: Run, h: Host, cwd: string, lists: Option<Record<InitialisedList>>, dbProviderName: string)
    requires Open(h, run) && ProjectConsent(run.telemetry.settings, cwd).Some?
    requires Due(ProjectConsent(run.telemetry.settings, cwd).value, TodaysDate(h.now), IsDebugging(run.env))
    requires Due(run.telemetry.settings.device, TodaysDate(h.now), IsDebugging(run.env))
    ensures SendTelemetryEvent(run, h, cwd, lists, dbProviderName).sent
            == run.sent + [ProjectEvent(run.env, h, lists, dbProviderName, ProjectConsent(run.telemetry.settings, cwd).value),
                           DeviceEvent(run.env, h, run.telemetry.settings.device)]
  {
    var s := run.telemetry.settings;
    var pc := ProjectConsent(s, cwd).value;
    var pe := ProjectEvent(run.env, h, lists, dbProviderName, pc);
    var de := DeviceEvent(run.env, h, s.device);
    assert ProjectEvents(run.env, h, lists, dbProviderName, pc) == [pe];
    assert DeviceEvents(run.env, h, s.device) == [de];
    Pair(run.sent, pe, de);
  }

  lemma Pair<T>(xs: seq<T>, a: T, b: T)
    ensures xs + [a] + [b] == xs + [a, b]
  {
  }

  /**
   The next process after the one that asked for consent, in the same
   environment, reads the stored consent back and sends the project event and
   the device event, both carrying an empty last-sent date.
   */
  lemma SecondRunSendsBoth(run: Run, h: Host, later: Host, cwd: string, lists: Option<Record<InitialisedList>>,
                           dbProviderName: string)
    requires !TelemetryDisabled(h, run.env, run.telemetry) && run.telemetry.NotSet?
    requires !later.isCI
    ensures var r := EnsureTelemetry(run, h, cwd);
            var next := r.(env := run.env, telemetry := ReadTelemetry(r.store).value);
            var sent := SendTelemetryEvent(next, later, cwd, lists, dbProviderName).sent;
            && sent == run.sent + [ProjectEvent(run.env, later, lists, dbProviderName, Granted(Some(h.now), None)),
                                   DeviceEvent(run.env, later, Granted(Some(h.now), None))]
            && sent[|run.sent|].payload.lastSentDate == ""
            && sent[|run.sent| + 1].payload.lastSentDate == ""
  {
    var r := EnsureTelemetry(run, h, cwd);
    var informed := Granted(Some(h.now), None);
    assert ReadTelemetry(r.store) == Some(r.telemetry) && r.sent == run.sent;
    var next := r.(env := run.env, telemetry := r.telemetry);
    assert next.telemetry.Stored? && next.sent == run.sent && cwd in next.telemetry.settings.projects
           && next.telemetry.settings.projects[cwd] == informed && next.telemetry.settings.device == informed;
    assert Open(later, next);
    BothDue(next, later, cwd, lists, dbProviderName);
  }
}

=== FILE: platform.dfy ===
/**
 What the telemetry code asks of its surroundings, taken as inputs: whether it
 runs under CI, the current time, the operating system, the Node.js version,
 the installed package versions and the built-in collection endpoint.
 */
module Platform {
  import Strings

  datatype Host = Host(
    isCI: bool,             // ci.isCI
    now: string,            // new Date().toISOString()
    platform: string,       // os.platform()
    nodeVersion: string,    // process.versions.node, e.g. "18.12.1"
    installed: map<string, string>,  // package name -> version of its resolvable package.json
    defaultEndpoint: string // defaults.telemetryEndpoint
  )

  /** Where an event goes: printed to the console, or posted over HTTP. */
  datatype Channel = Console | Post

  /** `new Date().toISOString().slice(0, 10)`: the calendar-day part of the timestamp. */
  function TodaysDate(now: string): (d: string)
    ensures Strings.StartsWith(now, d)
    ensures |d| == if |now| < 10 then |now| else 10
  {
    if |now| <= 10 then now else now[..10]
  }

  /** `version.split('.')[0]`: the major version, the text before the first `.`. */
  function MajorVersion(version: string): (major: string)
    ensures Strings.StartsWith(version, major)
    ensures '.' !in major
    ensures major == version || version[|major|] == '.'
  {
    Strings.Head(version, '.')
  }
}

=== FILE: records.dfy ===
/**
 A JavaScript `Record<string, V>` seen through `Object.entries`: key/value pairs
 in insertion order, no key twice.
 */
module Records {
  import opened Wrappers

  predicate DistinctKeys<V>(es: seq<(string, V)>) {
    forall i, j :: 0 <= i < j < |es| ==> es[i].0 != es[j].0
  }

  type Record<V> = es: seq<(string, V)> | DistinctKeys(es) witness []

  function Keys<V>(es: seq<(string, V)>): set<string> {
    set i | 0 <= i < |es| :: es[i].0
  }

  lemma {:induction false} KeysCard<V>(es: seq<(string, V)>)
    requires DistinctKeys(es)
    ensures |Keys(es)| == |es|
    decreases |es|
  {
    if |es| > 0 {
      var tail := es[1..];
      KeysCard(tail);
      assert Keys(es) == {es[0].0} + Keys(tail) by {
        forall k | k in Keys(es) ensures k in {es[0].0} + Keys(tail) {
          var i :| 0 <= i < |es| && es[i].0 == k;
          if i > 0 { assert tail[i - 1].0 == k; }
        }
      }
      assert es[0].0 !in Keys(tail);
    }
  }

  /**
   `listCount`: the number of keys of an optional record, 0 when it is absent
   (`Object.keys(lists).length`).
   */
  function KeyCount<V>(r: Option<Record<V>>): (n: nat)
    ensures r.None? ==> n == 0
    ensures r.Some? ==> n == |Keys(r.value)|
  {
    if r.None? then 0
    else
      KeysCard(r.value);
      |r.value|
  }
}

=== FILE: strings.dfy ===
/**
 Character-sequence helpers with the meaning of the JavaScript string operations
 the telemetry code uses: `startsWith`, `endsWith`, `<` / `>=`, `split` and `||`.
 */
module Strings {

  /** `s.startsWith(prefix)` */
  predicate StartsWith(s: string, prefix: string) {
    |prefix| <= |s| && s[..|prefix|] == prefix
  }

  /** `s.endsWith(suffix)` */
  predicate EndsWith(s: string, suffix: string) {
    |suffix| <= |s| && s[|s| - |suffix|..] == suffix
  }

  /** `a || b` on two strings: the empty string is the only falsy string. */
  function Or(a: string, b: string): string {
    if a != "" then a else b
  }

  /**
   `a < b` on JavaScript strings: the first differing character decides, and a
   proper prefix is smaller than the string it starts.
   */
  predicate Less(a: string, b: string)
    decreases |a|
  {
    if |a| == 0 then |b| > 0
    else if |b| == 0 then false
    else if a[0] != b[0] then a[0] < b[0]
    else Less(a[1..], b[1..])
  }

  /** `a >= b` on JavaScript strings. */
  predicate AtLeast(a: string, b: string) {
    !Less(a, b)
  }

  lemma {:induction false} LessIrreflexive(a: string)
    ensures !Less(a, a)
    decreases |a|
  {
    if |a| > 0 {
      LessIrreflexive(a[1..]);
    }
  }

  lemma {:induction false} LessTransitive(a: string, b: string, c: string)
    requires Less(a, b) && Less(b, c)
    ensures Less(a, c)
    decreases |a|
  {
    if |a| > 0 && a[0] == b[0] && b[0] == c[0] {
      LessTransitive(a[1..], b[1..], c[1..]);
    }
  }

  /** The order is total: two strings are equal or one is below the other. */
  lemma {:induction false} LessTotal(a: string, b: string)
    ensures Less(a, b) || a == b || Less(b, a)
    decreases |a|
  {
    if |a| > 0 && |b| > 0 && a[0] == b[0] {
      LessTotal(a[1..], b[1..]);
      if a[1..] == b[1..] {
        assert a == [a[0]] + a[1..];
        assert b == [b[0]] + b[1..];
      }
    }
  }

  lemma LessAsymmetric(a: string, b: string)
    requires Less(a, b)
    ensures !Less(b, a)
  {
    if Less(b, a) {
      LessTransitive(a, b, a);
      LessIrreflexive(a);
    }
  }

  /** The pieces joined back with `sep` between them: the inverse of `Split`. */
  function Join(parts: seq<string>, sep: char): string
    decreases |parts|
  {
    if |parts| == 0 then ""
    else if |parts| == 1 then parts[0]
    else parts[0] + [sep] + Join(parts[1..], sep)
  }

  /**
   `s.split(sep)` for a one-character separator: the maximal separator-free
   pieces in order, so there is always at least one (`"".split(".")` is `[""]`).
   */
  function Split(s: string, sep: char): (parts: seq<string>)
    ensures |parts| >= 1
    ensures forall i :: 0 <= i < |parts| ==> sep !in parts[i]
    ensures Join(parts, sep) == s
    decreases |s|
  {
    if |s| == 0 then [""]
    else
      var rest := Split(s[1..], sep);
      if s[0] == sep then
        assert ([""] + rest)[1..] == rest;
        [""] + rest
      else
        var parts := [[s[0]] + rest[0]] + rest[1..];
        assert parts[1..] == rest[1..];
        assert Join(parts, sep) == s by {
          if |rest| > 1 {
            assert Join(rest, sep) == rest[0] + [sep] + Join(rest[1..], sep);
          }
          assert s == [s[0]] + s[1..];
        }
        parts
  }

  /** A separator-free text splits into itself. */
  lemma {:induction false} SplitPlain(p: string, sep: char)
    requires sep !in p
    ensures Split(p, sep) == [p]
    decreases |p|
  {
    if |p| > 0 {
      SplitPlain(p[1..], sep);
    }
  }

  /** Splitting stops at the first separator. */
  lemma {:induction false} SplitAtSeparator(p: string, sep: char, t: string)
    requires sep !in p
    ensures Split(p + [sep] + t, sep) == [p] + Split(t, sep)
    decreases |p|
  {
    var s := p + [sep] + t;
    if |p| == 0 {
      assert s[1..] == t;
    } else {
      assert s[1..] == p[1..] + [sep] + t;
      SplitAtSeparator(p[1..], sep, t);
      assert [p[0]] + p[1..] == p;
    }
  }

  /** Split undoes Join when no piece holds the separator. */
  lemma {:induction false} SplitJoin(parts: seq<string>, sep: char)
    requires |parts| >= 1
    requires forall i :: 0 <= i < |parts| ==> sep !in parts[i]
    ensures Split(Join(parts, sep), sep) == parts
    decreases |parts|
  {
    if |parts| == 1 {
      SplitPlain(parts[0], sep);
    } else {
      SplitJoin(parts[1..], sep);
      SplitAtSeparator(parts[0], sep, Join(parts[1..], sep));
      assert [parts[0]] + parts[1..] == parts;
    }
  }

  /**
   The first piece of a split is the text before the first separator: a prefix
   of `s` free of `sep`, and either all of `s` or followed by `sep`.
   */
  function Head(s: string, sep: char): (h: string)
    ensures StartsWith(s, h)
    ensures sep !in h
    ensures h == s || (|h| < |s| && s[|h|] == sep)
  {
    var parts := Split(s, sep);
    if |parts| > 1 then
      assert s == parts[0] + [sep] + Join(parts[1..], sep);
      assert s[..|parts[0]|] == parts[0];
      parts[0]
    else
      parts[0]
  }
}

=== FILE: tally.dfy ===
/**
 Counting items into named buckets, the shape of both `fieldCount` revisions:
 start from some counts, and for each item either skip it or add one to its
 bucket (`counts[b] = (counts[b] || 0) + 1`).
 */
module Tally {
  import opened Wrappers

  type Counts = map<string, int>

  /** The bucket both `fieldCount` revisions start from, and where untagged fields go. */
  const Unknown := "unknown"

  /** How many of `xs` go to bucket `k`. */
  function Count<T>(xs: seq<T>, bucket: T -> Option<string>, k: string): nat
    decreases |xs|
  {
    if |xs| == 0 then 0
    else (if bucket(xs[0]) == Some(k) then 1 else 0) + Count(xs[1..], bucket, k)
  }

  /** How many of `xs` go to some bucket, i.e. are not skipped. */
  function Counted<T>(xs: seq<T>, bucket: T -> Option<string>): nat
    decreases |xs|
  {
    if |xs| == 0 then 0
    else (if bucket(xs[0]).Some? then 1 else 0) + Counted(xs[1..], bucket)
  }

  function At(m: Counts, k: string): int {
    if k in m then m[k] else 0
  }

  /** One item counted. */
  function Bump(acc: Counts, b: Option<string>): Counts {
    if b.Some? then acc[b.value := At(acc, b.value) + 1] else acc
  }

  /**
   The counts after going through `xs` in order: every bucket already present
   or used by some item is a key, and holds its old count plus the number of
   items that went to it.
   */
  function Tally<T>(acc: Counts, xs: seq<T>, bucket: T -> Option<string>): (r: Counts)
    ensures forall k :: k in r <==> k in acc || Count(xs, bucket, k) > 0
    ensures forall k :: k in r ==> r[k] == At(acc, k) + Count(xs, bucket, k)
    decreases |xs|
  {
    if |xs| == 0 then acc
    else Tally(Bump(acc, bucket(xs[0])), xs[1..], bucket)
  }

  /** Some key of a non-empty map. */
  ghost function Pick(m: Counts): (k: string)
    requires |m| > 0
    ensures k in m
  {
    var k :| k in m; k
  }

  /** The sum of all counts. */
  ghost function Sum(m: Counts): int
    decreases |m|
  {
    if |m| == 0 then 0
    else m[Pick(m)] + Sum(m - {Pick(m)})
  }

  /** The sum does not depend on which key is taken out first. */
  lemma {:induction false} SumRemove(m: Counts, k: string)
    requires k in m
    ensures Sum(m) == m[k] + Sum(m - {k})
    decreases |m|
  {
    var j := Pick(m);
    if j != k {
      var mj, mk := m - {j}, m - {k};
      assert k in mj && j in mk;
      SumRemove(mj, k);
      SumRemove(mk, j);
      assert mj - {k} == mk - {j};
    }
  }

  lemma SumBump(acc: Counts, b: Option<string>)
    ensures Sum(Bump(acc, b)) == Sum(acc) + (if b.Some? then 1 else 0)
  {
    if b.Some? {
      var k := b.value;
      var m := Bump(acc, b);
      SumRemove(m, k);
      if k in acc {
        SumRemove(acc, k);
        assert m - {k} == acc - {k};
      } else {
        assert m - {k} == acc;
      }
    }
  }

  /** Counting adds exactly one per item that is not skipped. */
  lemma {:induction false} TallySum<T>(acc: Counts, xs: seq<T>, bucket: T -> Option<string>)
    ensures Sum(Tally(acc, xs, bucket)) == Sum(acc) + Counted(xs, bucket)
    decreases |xs|
  {
    if |xs| > 0 {
      SumBump(acc, bucket(xs[0]));
      TallySum(Bump(acc, bucket(xs[0])), xs[1..], bucket);
    }
  }

  /** With a classifier that skips nothing, every item is counted. */
  lemma {:induction false} CountedAll<T>(xs: seq<T>, bucket: T -> Option<string>)
    requires forall i :: 0 <= i < |xs| ==> bucket(xs[i]).Some?
    ensures Counted(xs, bucket) == |xs|
    decreases |xs|
  {
    if |xs| > 0 {
      CountedAll(xs[1..], bucket);
    }
  }
}

=== FILE: telemetry.dfy ===
/**
 The per-category revision of Keystone's telemetry (`lib/telemetry.ts`): a gate
 on the environment and the stored setting, first-run consent, copy of the
 default project consent for a new directory, and at most one project event and
 one device event per calendar day.

 One `Run` is the state one process sees: its environment, the module's
 in-memory `telemetry` value, the configuration file, and the events handed
 to the network (or console) so far.
 */
module Telemetry {
  import opened Wrappers
  import opened Json
  import opened Consent
  import opened Environment
  import opened Records
  import opened Platform
  import Strings
  import Tally

  /** The packages whose installed versions a project event reports. */
  const PackageNames: seq<string> := [
    "@keystone-6/core",
    "@keystone-6/auth",
    "@keystone-6/fields-document",
    "@keystone-6/cloudinary",
    "@keystone-6/session-store-redis",
    "@opensaas/keystone-nextjs-auth"
  ]

  const Relationship := "@keystone-6/relationship"

  /**
   One process: its environment, the in-memory setting, the file, the events
   handed to the network or the console, and whether the consent notice
   (`notifyText`) has been printed.
   */
  datatype Run = Run(env: Env, telemetry: Config, store: Obj, sent: seq<Dispatch>, notified: bool)

  datatype Payload =
    | Project(lastSentDate: string, fields: Tally.Counts, lists: nat, versions: map<string, string>, database: string)
    | Device(lastSentDate: string, os: string, node: string)

  datatype Dispatch = Dispatch(channel: Channel, url: string, payload: Payload)

  /** A database field after list initialisation: its telemetry tag, if any, and its kind. */
  datatype DbField = DbField(telemetryTypeName: Option<string>, kind: string)

  datatype InitialisedList = InitialisedList(resolvedDbFields: Record<DbField>)

  // ---------------------------------------------------------------- gate

  /** `isDebugging()`: the debug variable is set to anything but `''`, `'0'` or `'false'`. */
  predicate IsDebugging(env: Env)
    ensures IsDebugging(env) <==> Var(env, Debug) !in {None, Some(""), Some("0"), Some("false")}
  {
    Switch(env, Debug)
  }

  /** `telemetryDisabled()`: CI, production, an opted-out setting, or the run that just asked for consent. */
  predicate TelemetryDisabled(h: Host, env: Env, telemetry: Config) {
    || h.isCI
    || Var(env, NodeEnv) == Some("production")
    || telemetry == OptedOut
    || Var(env, FirstRun) == Some("1")
  }

  /**
   The typed gate agrees with the code's `telemetry === false` test on the
   value the file holds.
   */
  lemma TelemetryDisabledStored(h: Host, env: Env, store: Obj, c: Config)
    requires ReadTelemetry(store) == Some(c)
    ensures TelemetryDisabled(h, env, c) <==>
      || h.isCI
      || Var(env, NodeEnv) == Some("production")
      || TelemetryValue(store) == Some(JBool(false))
      || Var(env, FirstRun) == Some("1")
  {
    if c.Stored? {
      assert TelemetryValue(store).value.JObj?;
    }
  }

  // ---------------------------------------------------------------- project summary

  predicate Tagged(f: DbField) {
    f.telemetryTypeName.Some? && f.telemetryTypeName.value != ""
  }

  /**
   The bucket a field is counted in: its tag; for an untagged field, nothing when
   its path ends in `id` or starts with `from`, the relationship bucket for a
   relation, and `unknown` otherwise.
   */
  function Bucket(entry: (string, DbField)): (b: Option<string>)
    ensures Tagged(entry.1) ==> b == entry.1.telemetryTypeName
    ensures b.None? <==> !Tagged(entry.1) && (Strings.EndsWith(entry.0, "id") || Strings.StartsWith(entry.0, "from"))
    ensures b.Some? ==> b.value != ""
    ensures !Tagged(entry.1) && b.Some? ==> (b == Some(Relationship) <==> entry.1.kind == "relation")
    ensures !Tagged(entry.1) && b.Some? && entry.1.kind != "relation" ==> b == Some(Tally.Unknown)
  {
    var (path, field) := entry;
    if Tagged(field) then Some(field.telemetryTypeName.value)
    else if Strings.EndsWith(path, "id") then None
    else if Strings.StartsWith(path, "from") then None
    else if field.kind == "relation" then Some(Relationship)
    else Some(Tally.Unknown)
  }

  /** Every field of every list, list by list in `Object.entries` order. */
  function DbFields(lists: seq<(string, InitialisedList)>): seq<(string, DbField)>
    decreases |lists|
  {
    if |lists| == 0 then []
    else lists[0].1.resolvedDbFields + DbFields(lists[1..])
  }

  function AllDbFields(lists: Option<Record<InitialisedList>>): seq<(string, DbField)> {
    if lists.None? then [] else DbFields(lists.value)
  }

  /**
   `fieldCount`: `unknown` is always a key; every other key is a bucket some
   field went to; each count is the number of fields in that bucket.
   */
  function FieldCount(lists: Option<Record<InitialisedList>>): (r: Tally.Counts)
    ensures Tally.Unknown in r
    ensures forall k :: k in r <==> k == Tally.Unknown || Tally.Count(AllDbFields(lists), Bucket, k) > 0
    ensures forall k :: k in r ==> r[k] == Tally.Count(AllDbFields(lists), Bucket, k)
  {
    if lists.None? then map[Tally.Unknown := 0]
    else Tally.Tally(map[Tally.Unknown := 0], DbFields(lists.value), Bucket)
  }

  /** The counts add up to the number of fields that are not skipped. */
  lemma FieldCountSum(lists: Option<Record<InitialisedList>>)
    ensures Tally.Sum(FieldCount(lists)) == Tally.Counted(AllDbFields(lists), Bucket)
  {
    var init: Tally.Counts := map[Tally.Unknown := 0];
    Tally.SumRemove(init, Tally.Unknown);
    assert init - {Tally.Unknown} == map[];
    Tally.TallySum(init, AllDbFields(lists), Bucket);
  }

  /** An untagged `id`, a `title` tagged `text` and an untagged relation `authorId`. */
  const ExampleFields: Record<DbField> :=
    [("id", DbField(None, "scalar")), ("title", DbField(Some("text"), "scalar")),
     ("authorId", DbField(None, "relation"))]

  /** The id is skipped, and `authorId` (which ends in `Id`, not `id`) is a relationship. */
  lemma ExampleBuckets()
    ensures Bucket(ExampleFields[0]) == None
    ensures Bucket(ExampleFields[1]) == Some("text")
    ensures Bucket(ExampleFields[2]) == Some(Relationship)
  {
    assert Strings.EndsWith("id", "id");
    assert !Strings.EndsWith("authorId", "id") by { assert "authorId"[6..] == "Id"; }
    assert !Strings.StartsWith("authorId", "from") by { assert "authorId"[..4] == "auth"; }
  }

  lemma ExampleCounts(k: string)
    ensures Tally.Count(ExampleFields, Bucket, k) == if k == "text" || k == Relationship then 1 else 0
  {
    ExampleBuckets();
    var xs := ExampleFields;
    assert xs[1..][0] == xs[1] && xs[1..][1..][0] == xs[2] && xs[1..][1..][1..] == [];
  }

  /**
   The field counts for one list holding `ExampleFields`: one `text`, one
   relationship, and `unknown` left at zero.
   */
  lemma FieldCountExample()
    ensures FieldCount(Some([("Post", InitialisedList(ExampleFields))]))
            == map[Tally.Unknown := 0, "text" := 1, Relationship := 1]
  {
    var lists: Record<InitialisedList> := [("Post", InitialisedList(ExampleFields))];
    assert DbFields(lists) == ExampleFields by {
      assert DbFields(lists[1..]) == [];
    }
    forall k ensures Tally.Count(ExampleFields, Bucket, k) == if k == "text" || k == Relationship then 1 else 0 {
      ExampleCounts(k);
    }
    var r := FieldCount(Some(lists));
    assert r.Keys == {Tally.Unknown, "text", Relationship};
  }

  /** The versions of the packages in `names` that are installed, each under its own name. */
  function CollectVersions(names: seq<string>, installed: map<string, string>): (r: map<string, string>)
    ensures r.Keys == set n | n in names && n in installed
    ensures forall n :: n in r ==> r[n] == installed[n]
    decreases |names|
  {
    if |names| == 0 then map[]
    else
      var rest := CollectVersions(names[1..], installed);
      assert forall n :: n in names <==> n == names[0] || n in names[1..];
      if names[0] in installed then rest[names[0] := installed[names[0]]] else rest
  }

  /** `keystonePackages`: the installed versions of the fixed package names, and nothing else. */
  function KeystonePackages(installed: map<string, string>): (r: map<string, string>)
    ensures forall n :: n in r <==> n in PackageNames && n in installed
    ensures forall n :: n in r ==> r[n] == installed[n]
  {
    CollectVersions(PackageNames, installed)
  }

  // ---------------------------------------------------------------- sending

  function TelemetryEndpoint(env: Env, defaultEndpoint: string): string {
    OrElse(env, Endpoint, defaultEndpoint)
  }

  /** `${telemetryEndpoint}/v1/event/${eventType}` */
  function EventUrl(env: Env, defaultEndpoint: string, eventType: string): (url: string)
    ensures Strings.StartsWith(url, TelemetryEndpoint(env, defaultEndpoint))
    ensures Strings.EndsWith(url, "/v1/event/" + eventType)
    ensures |url| == |TelemetryEndpoint(env, defaultEndpoint)| + |"/v1/event/" + eventType|
  {
    var e := TelemetryEndpoint(env, defaultEndpoint);
    var url := e + "/v1/event/" + eventType;
    assert url[..|e|] == e;
    assert url[|e|..] == "/v1/event/" + eventType;
    url
  }

  /** `sendEvent`: printed when `KEYSTONE_TELEMETRY_DISPLAY` is `'1'`, posted otherwise. */
  function SendEvent(env: Env, h: Host, eventType: string, payload: Payload): (d: Dispatch)
    ensures d.payload == payload
    ensures d.channel == Console <==> Var(env, Display) == Some("1")
    ensures Strings.EndsWith(d.url, "/v1/event/" + eventType)
    ensures Strings.StartsWith(d.url, TelemetryEndpoint(env, h.defaultEndpoint))
    ensures |d.url| == |TelemetryEndpoint(env, h.defaultEndpoint)| + |"/v1/event/" + eventType|
  {
    var channel := if Var(env, Display) == Some("1") then Console else Post;
    Dispatch(channel, EventUrl(env, h.defaultEndpoint, eventType), payload)
  }

  /** `!!lastSentDate && lastSentDate >= todaysDate` */
  predicate AlreadySent(last: Option<string>, today: string)
    ensures last.None? || last == Some("") ==> !AlreadySent(last, today)
    ensures today != "" && last == Some(today) ==> AlreadySent(last, today)
    ensures last.Some? && Strings.Less(last.value, today) ==> !AlreadySent(last, today)
  {
    Strings.LessIrreflexive(today);
    last.Some? && last.value != "" && Strings.AtLeast(last.value, today)
  }

  /** Whether an event goes out for this consent: given, and not already sent today unless debugging. */
  predicate Due(c: Consent, today: string, debugging: bool)
    ensures c.Declined? ==> !Due(c, today, debugging)
    ensures debugging ==> (Due(c, today, debugging) <==> c.Granted?)
    ensures c.Granted? && today != "" && c.lastSentDate == Some(today) ==> (Due(c, today, debugging) <==> debugging)
    ensures c.Granted? && c.lastSentDate.None? ==> Due(c, today, debugging)
  {
    c.Granted? && (debugging || !AlreadySent(c.lastSentDate, today))
  }

  /** The key the first-access copy is stored under (no `.` after `projects`). */
  function CopyKey(cwd: string): string {
    "telemetry.projects" + cwd
  }

  /** The key a project's last-sent date is stored under. */
  function ProjectDateKey(cwd: string): string {
    "telemetry.projects." + cwd + ".lastSentDate"
  }

  const DeviceDateKey := "telemetry.device.lastSentDate"

  /** The keys `DeviceDateKey` addresses. */
  const DeviceDatePath: seq<string> := ["telemetry", "device", "lastSentDate"]

  lemma DeviceDatePathOfKey()
    ensures Path(DeviceDateKey) == DeviceDatePath
  {
    assert DeviceDateKey == Strings.Join(DeviceDatePath, '.');
    Strings.SplitJoin(DeviceDatePath, '.');
  }

  /** The project event for a consent: its previous last-sent date (or `''`) and the project summary. */
  function ProjectEvent(env: Env, h: Host, lists: Option<Record<InitialisedList>>, dbProviderName: string,
                        c: Consent): Dispatch
    requires c.Granted?
  {
    SendEvent(env, h, "project", Project(c.lastSentDate.GetOr(""), FieldCount(lists), KeyCount(lists),
                                         KeystonePackages(h.installed), dbProviderName))
  }

  /** The device event for a consent: its previous last-sent date (or `''`), the OS and the Node.js major version. */
  function DeviceEvent(env: Env, h: Host, c: Consent): Dispatch
    requires c.Granted?
  {
    SendEvent(env, h, "device", Device(c.lastSentDate.GetOr(""), h.platform, MajorVersion(h.nodeVersion)))
  }

  /** The project event when the consent is due, else none. */
  function ProjectEvents(env: Env, h: Host, lists: Option<Record<InitialisedList>>, dbProviderName: string,
                         c: Consent): seq<Dispatch>
  {
    if Due(c, TodaysDate(h.now), IsDebugging(env)) then [ProjectEvent(env, h, lists, dbProviderName, c)] else []
  }

  /** The device event when the consent is due, else none. */
  function DeviceEvents(env: Env, h: Host, c: Consent): seq<Dispatch> {
    if Due(c, TodaysDate(h.now), IsDebugging(env)) then [DeviceEvent(env, h, c)] else []
  }

  /**
   `sendProjectTelemetryEvent`: when due, one project event, after which the
   file's last-sent date for the project is today's whatever became of the
   event; when not due, nothing. The in-memory setting is left as it was.
   */
  function SendProjectTelemetryEvent(run: Run, h: Host, cwd: string, lists: Option<Record<InitialisedList>>,
                                     dbProviderName: string, projectConfig: Consent): (r: Run)
    ensures r.env == run.env && r.telemetry == run.telemetry
    ensures r.sent == run.sent + ProjectEvents(run.env, h, lists, dbProviderName, projectConfig)
    ensures !Due(projectConfig, TodaysDate(h.now), IsDebugging(run.env)) ==> r.store == run.store
    ensures Due(projectConfig, TodaysDate(h.now), IsDebugging(run.env)) ==>
      Get(r.store, Path(ProjectDateKey(cwd))) == Some(JStr(TodaysDate(h.now)))
    ensures Due(projectConfig, TodaysDate(h.now), IsDebugging(run.env)) ==>
      r.store == Set(run.store, Path(ProjectDateKey(cwd)), JStr(TodaysDate(h.now)))
    ensures Due(projectConfig, TodaysDate(h.now), IsDebugging(run.env)) ==>
      && r.sent[|run.sent|].payload.Project?
      && r.sent[|run.sent|].payload.lastSentDate == projectConfig.lastSentDate.GetOr("")
  {
    var today := TodaysDate(h.now);
    if projectConfig.Declined? then run
    else if AlreadySent(projectConfig.lastSentDate, today) && !IsDebugging(run.env) then run
    else
      var store := Set(run.store, Path(ProjectDateKey(cwd)), JStr(today));
      GetSet(run.store, Path(ProjectDateKey(cwd)), JStr(today));
      run.(sent := run.sent + [ProjectEvent(run.env, h, lists, dbProviderName, projectConfig)], store := store)
  }

  /**
   `sendDeviceTelemetryEvent`: when due, one device event, after which the
   file's device last-sent date is today's; when not due, nothing.
   */
  function SendDeviceTelemetryEvent(run: Run, h: Host, deviceConsent: Consent): (r: Run)
    ensures r.env == run.env && r.telemetry == run.telemetry
    ensures r.sent == run.sent + DeviceEvents(run.env, h, deviceConsent)
    ensures !Due(deviceConsent, TodaysDate(h.now), IsDebugging(run.env)) ==> r.store == run.store
    ensures Due(deviceConsent, TodaysDate(h.now), IsDebugging(run.env)) ==>
      Get(r.store, Path(DeviceDateKey)) == Some(JStr(TodaysDate(h.now)))
    ensures Due(deviceConsent, TodaysDate(h.now), IsDebugging(run.env)) ==>
      r.store == Set(run.store, Path(DeviceDateKey), JStr(TodaysDate(h.now)))
    ensures Due(deviceConsent, TodaysDate(h.now), IsDebugging(run.env)) ==>
      && r.sent[|run.sent|].payload.Device?
      && r.sent[|run.sent|].payload.lastSentDate == deviceConsent.lastSentDate.GetOr("")
  {
    var today := TodaysDate(h.now);
    if deviceConsent.Declined? then run
    else if AlreadySent(deviceConsent.lastSentDate, today) && !IsDebugging(run.env) then run
    else
      DeviceDatePathOfKey();
      var store := Set(run.store, DeviceDatePath, JStr(today));
      GetSet(run.store, DeviceDatePath, JStr(today));
      run.(sent := run.sent + [DeviceEvent(run.env, h, deviceConsent)], store := store)
  }

  /** The project consent a directory gets: its own entry, else the default entry, else none. */
  function ProjectConsent(s: Settings, cwd: string): Option<Consent> {
    if cwd in s.projects then Some(s.projects[cwd])
    else if DefaultProject in s.projects then Some(s.projects[DefaultProject])
    else None
  }

  /** The gate is open and a setting is stored. */
  predicate Open(h: Host, run: Run) {
    !TelemetryDisabled(h, run.env, run.telemetry) && run.telemetry.Stored?
  }

  /**
   Lines 91-94: a directory without an entry gets the default entry, in memory
   under the directory and in the file under the key `CopyKey(cwd)`.
   */
  function CopyDefault(run: Run, cwd: string): (r: Run)
    requires run.telemetry.Stored? && ProjectConsent(run.telemetry.settings, cwd).Some?
    ensures r.env == run.env && r.sent == run.sent
    ensures r.telemetry.Stored? && r.telemetry.settings.device == run.telemetry.settings.device
    ensures cwd in r.telemetry.settings.projects
    ensures Some(r.telemetry.settings.projects[cwd]) == ProjectConsent(run.telemetry.settings, cwd)
    ensures var s := run.telemetry.settings;
            r.telemetry.settings == s.(projects := s.projects[cwd := ProjectConsent(s, cwd).value])
    ensures var s := run.telemetry.settings;
            r.store == if cwd in s.projects then run.store
                       else Set(run.store, Path(CopyKey(cwd)), EncodeConsent(s.projects[DefaultProject]))
  {
    var s := run.telemetry.settings;
    if cwd in s.projects then run
    else
      run.(telemetry := Stored(s.(projects := s.projects[cwd := s.projects[DefaultProject]])),
           store := Set(run.store, Path(CopyKey(cwd)), EncodeConsent(s.projects[DefaultProject])))
  }

  /**
   `sendTelemetryEvent`. Nothing happens when the gate is closed or nothing is
   stored. Otherwise a directory without an entry first gets a copy of the
   default entry; then the project event goes out if the directory's consent
   is due, then the device event if the device consent is due. When neither
   the directory nor the default has an entry the copy cannot be stored (the
   file refuses `undefined`), and the whole call is abandoned.
   */
  function SendTelemetryEvent(run: Run, h: Host, cwd: string, lists: Option<Record<InitialisedList>>,
                              dbProviderName: string): (r: Run)
    ensures !Open(h, run) ==> r == run
    ensures r.env == run.env
    ensures Open(h, run) && ProjectConsent(run.telemetry.settings, cwd).None? ==> r == run
    ensures Open(h, run) && ProjectConsent(run.telemetry.settings, cwd).Some? ==>
      r.sent == run.sent
                + ProjectEvents(run.env, h, lists, dbProviderName, ProjectConsent(run.telemetry.settings, cwd).value)
                + DeviceEvents(run.env, h, run.telemetry.settings.device)
  {
    if !Open(h, run) then run
    else
      var s := run.telemetry.settings;
      if ProjectConsent(s, cwd).None? then run
      else
        var r1 := CopyDefault(run, cwd);
        SendBoth(r1, h, cwd, lists, dbProviderName, r1.telemetry.settings.projects[cwd], s.device)
  }

  /** Lines 95-100: the project event for a given project consent, then the device event for a given device consent. */
  function SendBoth(run: Run, h: Host, cwd: string, lists: Option<Record<InitialisedList>>, dbProviderName: string,
                    project: Consent, device: Consent): (r: Run)
    ensures r.env == run.env && r.telemetry == run.telemetry
    ensures r.sent == run.sent + ProjectEvents(run.env, h, lists, dbProviderName, project)
                     + DeviceEvents(run.env, h, device)
  {
    var r2 := if project.Granted? then SendProjectTelemetryEvent(run, h, cwd, lists, dbProviderName, project) else run;
    if device.Granted? then SendDeviceTelemetryEvent(r2, h, device) else r2
  }

  // ---------------------------------------------------------------- first run

  /**
   `ensureTelemetry`. With the gate open and nothing stored, it stores consent
   for the device, the default project and this directory, all informed now,
   keeps the stored value in memory, prints the consent notice, and marks the
   run as the first one, which closes the gate for the rest of the run. In
   every other case nothing changes.
   */
  function EnsureTelemetry(run: Run, h: Host, cwd: string): (r: Run)
    ensures TelemetryDisabled(h, run.env, run.telemetry) || !run.telemetry.NotSet? ==> r == run
    ensures r.notified <==> run.notified || r.telemetry != run.telemetry
    ensures !TelemetryDisabled(h, run.env, run.telemetry) && run.telemetry.NotSet? ==>
      && r.telemetry.Stored?
      && r.telemetry.settings.device == Granted(Some(h.now), None)
      && r.telemetry.settings.projects.Keys == {DefaultProject, cwd}
      && (forall p :: p in r.telemetry.settings.projects ==> r.telemetry.settings.projects[p] == Granted(Some(h.now), None))
      && ReadTelemetry(r.store) == Some(r.telemetry)
      && r.store == WriteTelemetry(run.store, r.telemetry)
      && (forall k :: k != TelemetryKey ==> (k in r.store <==> k in run.store))
      && (forall k :: k in r.store && k != TelemetryKey ==> r.store[k] == run.store[k])
      && r.env == run.env[FirstRun := "1"]
      && r.sent == run.sent
      && TelemetryDisabled(h, r.env, r.telemetry)
  {
    if TelemetryDisabled(h, run.env, run.telemetry) then run
    else if run.telemetry.NotSet? then
      var informed := Granted(Some(h.now), None);
      var first := Stored(Settings(informed, map[DefaultProject := informed, cwd := informed], None, None));
      var store := WriteTelemetry(run.store, first);
      var reread := match ReadTelemetry(store) case Some(c) => c case None => run.telemetry;
      run.(store := store, env := run.env[FirstRun := "1"], telemetry := reread, notified := true)
    else run
  }
}

=== FILE: telemetry_script.dfy ===
/**
 The `keystone telemetry` command (`scripts/telemetry.ts`): show, clear,
 disable or re-initialise the stored `telemetry` setting. The prompts become
 the `Answers` parameter, the console text becomes a list of `Output`s, and
 `now` stands for the ISO timestamp of the moment the answers are given.
 */
module TelemetryScript {
  import opened Wrappers
  import opened Json
  import opened Consent
  import Strings
  import opened Platform
  import opened Records
  import opened Environment
  import Send = Telemetry

  /** The two consent prompts: device first, then project. */
  datatype Answers = Answers(device: bool, project: bool)

  datatype Output =
    | EnabledText(telemetry: Json)
    | DisabledText
    | InitText
    | InitializedText
    | DeviceConsentText
    | ProjectConsentText
    | UsageText(notice: string)

  /** The file after the command, and what it printed. */
  datatype Outcome = Outcome(store: Obj, output: seq<Output>)

  /** The label `case 'disable' || 'disabled':` matches: the `||` yields its first operand. */
  const DisableLabel := Strings.Or("disable", "disabled")

  /**
   `status`: the stored value shown when truthy, the disabled text when it is
   `false`, and the not-initialised text otherwise.
   */
  function Status(v: Option<Json>): (out: Output)
    ensures out.EnabledText? <==> v.Some? && Truthy(v.value)
    ensures out.EnabledText? ==> out.telemetry == v.value
    ensures out == DisabledText <==> v == Some(JBool(false))
  {
    if v.Some? && Truthy(v.value) then EnabledText(v.value)
    else if v == Some(JBool(false)) then DisabledText
    else InitText
  }

  /**
   `initGlobalTelemetry`: the device consent follows the first answer; the
   projects hold a declined default, or, after a yes to the second question,
   an informed default and an informed entry for the directory.
   */
  function InitGlobalTelemetry(cwd: string, answers: Answers, now: string): (s: Settings)
    ensures s.device == (if answers.device then Granted(Some(now), None) else Declined)
    ensures answers.project ==> s.projects.Keys == {DefaultProject, cwd}
    ensures !answers.project ==> s.projects == map[DefaultProject := Declined]
    ensures forall p :: p in s.projects ==> s.projects[p] == (if answers.project then Granted(Some(now), None) else Declined)
    ensures s.prisma.None? && s.nextjs.None?
  {
    var informed := Granted(Some(now), None);
    var device := if answers.device then informed else Declined;
    var projects := if answers.project then map[DefaultProject := informed, cwd := informed]
                    else map[DefaultProject := Declined];
    Settings(device, projects, None, None)
  }

  /**
   `telemetry(cwd, option)`. `status` reads and prints; `clear` deletes the
   setting; `disable` stores `false`; `init` deletes, asks the two questions
   and then stores the answers; anything else, including no option and `disabled`, prints the usage
   text and changes nothing.
   */
  function Telemetry(store: Obj, cwd: string, option: Option<string>, answers: Answers, now: string): (r: Outcome)
    ensures option == Some("clear") ==> ReadTelemetry(r.store) == Some(NotSet)
    ensures option == Some("disable") ==> ReadTelemetry(r.store) == Some(OptedOut)
    ensures option == Some("init") ==> ReadTelemetry(r.store) == Some(Stored(InitGlobalTelemetry(cwd, answers, now)))
    ensures option == Some("init") ==> r.store == WriteTelemetry(store, Stored(InitGlobalTelemetry(cwd, answers, now)))
    ensures forall k :: k != TelemetryKey ==> (k in r.store <==> k in store)
    ensures forall k :: k in r.store && k != TelemetryKey ==> r.store[k] == store[k]
    ensures option !in {Some("clear"), Some("disable"), Some("init")} ==> r.store == store
    ensures option != Some("init") ==> |r.output| == 1
    ensures option == Some("clear") ==> r.output == [InitText]
    ensures option == Some("disable") ==> r.output == [DisabledText]
    ensures option == Some("init") ==> r.output == [DeviceConsentText, ProjectConsentText, InitializedText]
    ensures option == Some("status") ==> r.output == [Status(TelemetryValue(store))]
    ensures option !in {Some("status"), Some("clear"), Some("disable"), Some("init")} ==>
      r.output == [UsageText(if option.Some? && option.value != "" then "Invalid option: " + option.value else "")]
  {
    if option == Some("status") then
      Outcome(store, [Status(TelemetryValue(store))])
    else if option == Some("clear") then
      Outcome(WriteTelemetry(store, NotSet), [InitText])
    else if option == Some(DisableLabel) then
      Outcome(WriteTelemetry(store, OptedOut), [DisabledText])
    else if option == Some("init") then
      var cleared := WriteTelemetry(store, NotSet);
      LastWriteWins(store, NotSet, Stored(InitGlobalTelemetry(cwd, answers, now)));
      Outcome(WriteTelemetry(cleared, Stored(InitGlobalTelemetry(cwd, answers, now))), [DeviceConsentText, ProjectConsentText, InitializedText])
    else
      var notice := if option.Some? && option.value != "" then "Invalid option: " + option.value else "";
      Outcome(store, [UsageText(notice)])
  }

  /** What `status` shows agrees with the typed view of the stored value. */
  lemma StatusShowsConfig(store: Obj, c: Config)
    requires ReadTelemetry(store) == Some(c)
    ensures Status(TelemetryValue(store)) == InitText <==> c.NotSet?
    ensures Status(TelemetryValue(store)) == DisabledText <==> c.OptedOut?
    ensures Status(TelemetryValue(store)).EnabledText? <==> c.Stored?
  {
    if c.Stored? {
      assert TelemetryValue(store).value.JObj?;
    }
  }

  /**
   A stored value of a shape the code never writes (an array, a number, a
   string, `null`) is never shown as disabled; it is shown as the configuration
   exactly when it is truthy, so `[]` and `0.5` are shown and `0` is not.
   */
  lemma StatusOfOtherValues(store: Obj)
    requires ReadTelemetry(store).None?
    ensures TelemetryValue(store).Some?
    ensures Status(TelemetryValue(store)) != DisabledText
    ensures Status(TelemetryValue(store)).EnabledText? <==> Truthy(TelemetryValue(store).value)
  {
  }

  /** `clear`, then `status`, shows the not-initialised text. */
  lemma StatusAfterClear(store: Obj, cwd: string, answers: Answers, now: string)
    ensures var cleared := Telemetry(store, cwd, Some("clear"), answers, now).store;
            Telemetry(cleared, cwd, Some("status"), answers, now).output == [InitText]
  {
    var cleared := Telemetry(store, cwd, Some("clear"), answers, now).store;
    StatusShowsConfig(cleared, NotSet);
  }

  /** `disable`, then `status`, shows the disabled text. */
  lemma StatusAfterDisable(store: Obj, cwd: string, answers: Answers, now: string)
    ensures var disabled := Telemetry(store, cwd, Some("disable"), answers, now).store;
            Telemetry(disabled, cwd, Some("status"), answers, now).output == [DisabledText]
  {
    var disabled := Telemetry(store, cwd, Some("disable"), answers, now).store;
    StatusShowsConfig(disabled, OptedOut);
  }

  /** `disabled` is not the `disable` label: it is an invalid option and the file keeps its setting. */
  lemma DisabledIsInvalid(store: Obj, cwd: string, answers: Answers, now: string)
    ensures Telemetry(store, cwd, Some("disabled"), answers, now)
            == Outcome(store, [UsageText("Invalid option: disabled")])
  {
    assert DisableLabel == "disable";
    assert "disabled" != "status" && "disabled" != "clear" && "disabled" != "disable" && "disabled" != "init" by {
      assert "disabled"[0] == 'd' && "disabled"[7] == 'd';
    }
    assert "Invalid option: " + "disabled" == "Invalid option: disabled";
  }

  /**
   After `disable`, a process reading the file neither asks for consent nor
   sends anything, whatever its environment and directory.
   */
  lemma DisableStopsTelemetry(store: Obj, cwd: string, answers: Answers, now: string, run: Send.Run, h: Host,
                              dir: string, lists: Option<Record<Send.InitialisedList>>, dbProviderName: string)
    requires Some(run.telemetry) == ReadTelemetry(Telemetry(store, cwd, Some("disable"), answers, now).store)
    ensures Send.EnsureTelemetry(run, h, dir) == run
    ensures Send.SendTelemetryEvent(run, h, dir, lists, dbProviderName) == run
  {
    assert run.telemetry == OptedOut;
  }

  /**
   After `init`, a process in the same directory with the gate open sends the
   project event exactly when the project question was answered yes, and the
   device event exactly when the device question was; both carry no
   last-sent date.
   */
  lemma InitAnswersDecide(store: Obj, cwd: string, answers: Answers, now: string, run: Send.Run, h: Host,
                          lists: Option<Record<Send.InitialisedList>>, dbProviderName: string)
    requires Some(run.telemetry) == ReadTelemetry(Telemetry(store, cwd, Some("init"), answers, now).store)
    requires !Send.TelemetryDisabled(h, run.env, run.telemetry)
    ensures var informed := Granted(Some(now), None);
            Send.SendTelemetryEvent(run, h, cwd, lists, dbProviderName).sent
            == run.sent
               + (if answers.project then [Send.ProjectEvent(run.env, h, lists, dbProviderName, informed)] else [])
               + (if answers.device then [Send.DeviceEvent(run.env, h, informed)] else [])
  {
    var s := InitGlobalTelemetry(cwd, answers, now);
    var informed := Granted(Some(now), None);
    assert run.telemetry == Stored(s);
    var consent := if answers.project then informed else Declined;
    assert Send.ProjectConsent(s, cwd) == Some(consent);
    assert Send.ProjectEvents(run.env, h, lists, dbProviderName, consent)
           == if answers.project then [Send.ProjectEvent(run.env, h, lists, dbProviderName, informed)] else [];
    assert Send.DeviceEvents(run.env, h, s.device) == if answers.device then [Send.DeviceEvent(run.env, h, informed)] else [];
  }
}

=== FILE: wrappers.dfy ===
/** The optional value used wherever the source has `undefined`. */
module Wrappers {

  datatype Option<+T> = None | Some(value: T) {

    /** The value, or `default` when there is none (JavaScript's `x ?? default`). */
    function GetOr(default: T): T {
      match this
      case Some(v) => v
      case None => default
    }
  }
}
